=== FILE: README.md ===
# lowenergyscanner-ng list models in Dafny

lowenergyscanner-ng is a Qt browser for Bluetooth Low Energy GATT servers.
Four Qt list models sit between the Bluetooth transport and the display
layer:

- the **devices model** runs a low-energy scan and lists every device record
  the scan reports;
- the **services model** connects to one peripheral and lists the service
  objects discovered on it;
- the **characteristics model** is bound to one service object and lists the
  UUIDs of its characteristics. It shows each characteristic's properties and
  subscription state, and turns read, write and subscribe commands into
  transport requests;
- the **descriptors model** takes a snapshot of the descriptors of one
  characteristic.

Each model is a small state machine around an ordered list with no
duplicates. Rows are only appended at the tail, and only when the value is
not yet listed. The devices, services and characteristics models also have a
`running` guard, and the services model a `connected` flag; the descriptors
model has neither.

This project models each list model as a Dafny class with the source's own
fields, with two additions. The descriptors model keeps the service object
and characteristic UUID its rows come from, because a Qt descriptor refers
back to its service and reads its value there. The characteristics model has
one field more, `wired`: the set of
service objects whose signals are connected to the model's handlers. It
stands for Qt's connection table rather than a member of the C++ class (see
"## Findings").

- Every signal the model emits goes into a ghost event log, `trace`. Signals
  are a running or connected flag change, a model reset, a row insertion, a
  data change or an error. The requests a handler or `update` sends to the
  transport go there too: start a scan, connect, discover services, discover
  a service's details.
- The user's commands `read`, `write`, `enableNotification` and
  `enableIndication` change no model state. They are functions that return
  the read or write request they would send, or none; they are not logged.
- A transport callback is a method on the class.
- The transport's live service object is the class `Gatt.RemoteService`. The
  transport fills in its state and characteristics.
- A controller is a record holding the remote address.

Shared parts, modelled as values:

- the ordered-list operations (`OrderedList`);
- the property bitmask and its labels (`CharacteristicProperties`);
- the Client Characteristic Configuration descriptor's little-endian value
  (`ClientConfiguration`). This descriptor is defined in section 3.3.3.3,
  Vol 3 Part G of the Bluetooth Core Specification. The property bits come
  from section 3.3.1.1 of the same part.

`Scenario` strings the models together into one session: scan, connect,
bind, then subscribe to heart-rate notifications.

## Model

| member | source | states |
|---|---|---|
| `CharacteristicProperties.PropertyLabels` | characteristicsmodel.cpp:22-44 | Unknown (no bit set) gives exactly ["Unknown"]. Otherwise the result is the labels of the set bits, at least one, in the fixed bit order Broadcasting, Read, WriteNoResponse, Write, Notify, Indicate, WriteSigned, ExtendedProperty. |
| `CharacteristicProperties.PropertyLabelsExact` | characteristicsmodel.cpp:27-43 | A bit's label appears if and only if the bit is set. |
| `CharacteristicProperties.DecodePropertiesRoundTrip` | characteristicsmodel.cpp:22-47 | The comma-joined label text determines the mask: splitting it at commas and or-ing the bits of the labels gives back the mask. |
| `CharacteristicProperties.EncodePropertyLabels` | characteristicsmodel.cpp:22-44 | The label list determines the mask: or-ing the bits of the labels gives the mask. |
| `CharacteristicProperties.SplitJoin` | characteristicsmodel.cpp:46 | Joining comma-free labels with "," and splitting again gives the labels back. |
| `CharacteristicProperties.Join` | characteristicsmodel.cpp:46 | The first label starts the text. For comma-free labels the text holds exactly one comma fewer than there are labels. |
| `CharacteristicProperties.DecodeProperties` | characteristicsmodel.cpp:22-47 | The property text: splitting it at the commas gives exactly the label list of the mask. |
| `CharacteristicProperties.IsReadable` | characteristicsmodel.cpp:319-320 | The readable flag holds exactly when the label list shows Read. |
| `CharacteristicProperties.IsWritable` | characteristicsmodel.cpp:315-318 | The writable flag holds exactly when the label list shows Write, WriteNoResponse or WriteSigned. |
| `CharacteristicProperties.IsNotifiable` | characteristicsmodel.cpp:321-322 | The notifiable flag holds exactly when the label list shows Notify. |
| `CharacteristicProperties.IsIndicatable` | characteristicsmodel.cpp:323-324 | The indicatable flag holds exactly when the label list shows Indicate. |
| `ClientConfiguration.LittleEndian` | characteristicsmodel.cpp:228-229 | Gives the two bytes of a configuration word, least significant first; reading them back gives the word. |
| `ClientConfiguration.FromLittleEndianInverse` | characteristicsmodel.cpp:228-229 | Encoding the word decoded from any two bytes gives back those bytes. |
| `ClientConfiguration.NotificationPayload` | characteristicsmodel.cpp:228-229 | Enabling writes the notifications word (01 00); disabling writes the zero word (00 00). |
| `ClientConfiguration.IndicationPayload` | characteristicsmodel.cpp:251-252 | Enabling writes the indications word (02 00); disabling writes the zero word (00 00). |
| `ClientConfiguration.NotificationEnabled` | characteristicsmodel.cpp:325-327 | Notifications show as enabled exactly when the configuration descriptor exists and holds two bytes that read, little-endian, as the notifications word. |
| `ClientConfiguration.IndicationEnabled` | characteristicsmodel.cpp:328-330 | Indications show as enabled exactly when the configuration descriptor exists and holds two bytes that read, little-endian, as the indications word. |
| `ClientConfiguration.EnabledFlagsExclusive` | characteristicsmodel.cpp:325-330 | The two enabled flags are never both set. |
| `ClientConfiguration.PayloadReadsBack` | characteristicsmodel.cpp:215-259 | After a completed enable or disable write, the enabled flags read back exactly what was asked. The other kind reads as disabled. |
| `Gatt.FindCharacteristic` | descriptorsmodel.cpp:28-34 | The first characteristic with the UUID, or none exactly when no characteristic has it. |
| `Gatt.DescriptorOf` | characteristicsmodel.cpp:223-226 | A descriptor of the characteristic with that UUID, or none exactly when there is none. |
| `Gatt.RecordOf` | descriptorsmodel.cpp:75 | The first record in the list for the same attribute handle, or none exactly when the list does not contain the descriptor. |
| `Gatt.RecordOfDistinct` | descriptorsmodel.cpp:75 | When handles are distinct, the record found for a listed descriptor is that descriptor. |
| `Gatt.ContainsDescriptor` | characteristicsmodel.cpp:169-170 | A descriptor list contains a descriptor when some record in it refers to the same attribute handle, whatever the values. A record present in the list is always contained. |
| `Gatt.FromShortUuid` | characteristicsmodel.cpp:224 | A 16-bit assigned number becomes the 128-bit UUID: the number sits above the Bluetooth base UUID. |
| `OrderedList.IndexOf` | characteristicsmodel.cpp:131 | The row of the first occurrence, or -1 exactly when the value is absent. |
| `OrderedList.AppendNew` | devicesmodel.cpp:29-39 | A listed value leaves the list unchanged. Otherwise the value is appended at the tail. |
| `OrderedList.AppendAll` | characteristicsmodel.cpp:266-283 | Existing rows are kept as a prefix. The result grows by at most one row per value. |
| `OrderedList.AppendAllMembers` | characteristicsmodel.cpp:269-281 | After the loop, the list holds exactly the earlier rows plus the appended values. |
| `OrderedList.AppendAllNoDuplicates` | characteristicsmodel.cpp:271-275 | A duplicate-free list stays duplicate-free. |
| `OrderedList.AppendAllFirstOccurrence` | descriptorsmodel.cpp:36-48 | The new rows are values that were not listed before, in first-occurrence order. |
| `OrderedList.AppendAllIdempotent` | devicesmodel.cpp:29-33 | Reporting the same values again changes nothing. |
| `OrderedList.AppendAllKeepsDistinct` | descriptorsmodel.cpp:36-48 | Values that are already distinct are all appended, in their order. |
| `OrderedList.Distinct` | descriptorsmodel.cpp:35-48 | Lists each value once, every value appears, and the order is first-occurrence order. |
| `Characteristics.CharacteristicsModel.constructor` | characteristicsmodel.h:48-50 | The model starts not running, with no service and no rows. |
| `Characteristics.CharacteristicsModel.SetRunning` | characteristicsmodel.cpp:59-66 | Sets the flag. It signals only when the value changes. |
| `Characteristics.CharacteristicsModel.Update` | characteristicsmodel.cpp:73-185 | No-op while running or when the same service is passed again. Otherwise the model binds the service and resets the rows in one reset, leaving running false until the transport reports the discovery state. A discovered service then fills the rows with its characteristic UUIDs, each once, in first-occurrence order, with one insertion per row. A service that needs discovery is asked to discover its details. |
| `Characteristics.CharacteristicsModel.UpdateCharacteristics` | characteristicsmodel.cpp:266-283 | Appends, at the tail only, each characteristic UUID not yet listed. Existing rows are kept, the list stays duplicate-free, and there is one insertion per new row. |
| `Characteristics.CharacteristicsModel.OnStateChanged` | characteristicsmodel.cpp:95-109 | DiscoveringServices sets running. ServiceDiscovered appends the characteristics, then clears running. Any other state changes nothing. |
| `Characteristics.CharacteristicsModel.OnError` | characteristicsmodel.cpp:111-122 | Clears running. It signals an error unless the error is DescriptorReadError. It then signals a data change over rows 0 to count-1. |
| `Characteristics.CharacteristicsModel.OnCharacteristicUpdated` | characteristicsmodel.cpp:124-158 | Refreshes the row that holds the characteristic's UUID, or row -1 exactly when no row does. |
| `Characteristics.CharacteristicsModel.OnDescriptorWritten` | characteristicsmodel.cpp:160-176 | Refreshes, in ascending row order, exactly the rows whose characteristic lists the written descriptor. |
| `Characteristics.CharacteristicsModel.Read` | characteristicsmodel.cpp:187-198 | Requests a read of the characteristic with the UUID, or nothing exactly when the service has no such characteristic. |
| `Characteristics.CharacteristicsModel.Write` | characteristicsmodel.cpp:200-213 | Requests a write of the given bytes to the characteristic with the UUID, or nothing when there is none. |
| `Characteristics.CharacteristicsModel.ConfigurationOf` | characteristicsmodel.cpp:218-226 | The configuration descriptor of the characteristic. It is none exactly when the characteristic or its descriptor is missing. |
| `Characteristics.CharacteristicsModel.EnableNotification` | characteristicsmodel.cpp:215-236 | Writes the notifications word (or zero) to the configuration descriptor. There is no request exactly when the characteristic or the descriptor is missing. |
| `Characteristics.CharacteristicsModel.EnableIndication` | characteristicsmodel.cpp:238-259 | Writes the indications word (or zero) to the configuration descriptor. There is no request exactly when the characteristic or the descriptor is missing. |
| `Characteristics.CharacteristicsModel.RowCount` | characteristicsmodel.cpp:285-289 | The number of rows. |
| `Characteristics.CharacteristicsModel.Data` | characteristicsmodel.cpp:291-338 | Empty outside [0, count), for a UUID the service no longer resolves, and for an unknown role. Otherwise each role gives the characteristic's name, UUID, label text, derived flags, subscription flags or value. |
| `Characteristics.SubscriptionFlagsExclusive` | characteristicsmodel.cpp:325-330 | No row shows notifications and indications as both enabled. |
| `Characteristics.DescriptorWriteRefreshesHolders` | characteristicsmodel.cpp:166-175 | Row r is refreshed after a descriptor write if and only if r is a row and its characteristic lists a record for the written descriptor's attribute. |
| `Characteristics.HoldersIgnoreValue` | characteristicsmodel.cpp:168-171 | Which rows are refreshed does not depend on the value the written record carries. A row that lists the descriptor with its old value is still refreshed. |
| `Characteristics.RowsWhereMembers` | characteristicsmodel.cpp:166-175 | The refreshed rows are exactly the rows whose flag holds. |
| `Characteristics.RowsWhereAscending` | characteristicsmodel.cpp:166-167 | The refreshed rows are in strictly ascending order. |
| `Characteristics.RefreshEventsSpec` | characteristicsmodel.cpp:172-174 | One single-row data change per refreshed row, in order. |
| `Characteristics.RewireAsWritten` | characteristicsmodel.cpp:83-85 | As written, binding a service keeps every earlier service's handlers connected and adds the new service's. |
| `Characteristics.Rewire` | characteristicsmodel.cpp:83-95 | Corrected: after binding, at most the bound service's handlers are connected. |
| `Characteristics.StaleServiceStaysWired` | characteristicsmodel.cpp:83-85 | After binding a and then b, a still reaches the model as written, and does not once corrected. |
| `Characteristics.RebindingDuplicatesHandlers` | characteristicsmodel.cpp:83-95 | Binding a, b, a leaves a's handlers connected twice as written, and once when corrected. |
| `Services.ServicesModel.constructor` | servicesmodel.h:41-44 | The model starts not running, not connected, with no controller and no rows. |
| `Services.ServicesModel.SetRunning` | servicesmodel.cpp:24-31 | Sets the flag. It signals only when the value changes. |
| `Services.ServicesModel.SetConnected` | servicesmodel.cpp:38-45 | Sets the flag. It signals only when the value changes. |
| `Services.ServicesModel.Update` | servicesmodel.cpp:53-135 | No-op while running or when the controller already goes to the address. Otherwise: running set, the controller replaced, the rows emptied in one reset, connected cleared, and a connection requested. The controller's state changes arrive afterwards as separate calls. |
| `Services.ServicesModel.OnStateChanged` | servicesmodel.cpp:75-95 | Connecting or Discovering sets running. Connected sets connected and requests service discovery. Discovered clears running. Unconnected and every other state change nothing. |
| `Services.ServicesModel.OnError` | servicesmodel.cpp:97-103 | Clears running and signals an error. |
| `Services.ServicesModel.OnServiceDiscovered` | servicesmodel.cpp:105-132 | The list is unchanged when the UUID is listed or no service object could be created. Otherwise exactly one object is appended at the tail, and UUIDs stay unique. |
| `Services.ServicesModel.Service` | servicesmodel.cpp:137-147 | The listed service with the UUID, or null exactly when none is listed. |
| `Services.ServicesModel.RowCount` | servicesmodel.cpp:149-153 | The number of rows. |
| `Services.ServicesModel.Data` | servicesmodel.cpp:155-172 | Empty outside [0, count) and for an unknown role. Otherwise the service's name or UUID. |
| `Services.FindService` | servicesmodel.cpp:139-146 | The first service with the UUID, or null exactly when none has it. |
| `Services.FindServiceAppend` | servicesmodel.cpp:105-132 | Appending a service with a new UUID makes that UUID resolve to it and leaves every other lookup unchanged. |
| `Services.ListedServiceStaysFound` | servicesmodel.cpp:105-147 | A listed service stays the lookup's answer whatever is discovered after it. |
| `Devices.DevicesModel.constructor` | devicesmodel.cpp:13-45 | The model starts not running and with no rows. It holds the scanner's timeout. |
| `Devices.DevicesModel.SetRunning` | devicesmodel.cpp:66-73 | Sets the flag. It signals only when the value changes. |
| `Devices.DevicesModel.SetDiscoveryTimeout` | devicesmodel.cpp:52-59 | Sets the timeout. It signals only when the value changes. |
| `Devices.DevicesModel.Update` | devicesmodel.cpp:80-87 | No-op while running. Otherwise it sets running and starts a scan. Listed devices are never cleared. |
| `Devices.DevicesModel.OnCanceled` | devicesmodel.cpp:17-20 | Clears running. |
| `Devices.DevicesModel.OnFinished` | devicesmodel.cpp:22-25 | Clears running. |
| `Devices.DevicesModel.OnDeviceDiscovered` | devicesmodel.cpp:27-40 | The record is appended at the tail, with one insertion, only when no equal record is listed. The list stays duplicate-free. |
| `Devices.DevicesModel.OnError` | devicesmodel.cpp:42-44 | Only forwards the error. Running is left alone. |
| `Devices.DevicesModel.RowCount` | devicesmodel.cpp:89-93 | The number of rows. |
| `Devices.DevicesModel.Data` | devicesmodel.cpp:95-112 | Empty outside [0, count) and for an unknown role. Otherwise the device's name or address. |
| `Devices.ReportsAccumulate` | devicesmodel.cpp:27-40 | Over any sequence of reports, earlier rows are kept as a prefix and the list stays duplicate-free. It holds exactly the earlier rows and the reports. Replaying the reports changes nothing. |
| `Devices.RenamedDeviceListedAgain` | devicesmodel.cpp:29 | Records are compared whole: a device reported under another name with the same address gets a second row. |
| `Descriptors.DescriptorsModel.constructor` | descriptorsmodel.h:21 | The model starts with no rows. |
| `Descriptors.DescriptorsModel.Update` | descriptorsmodel.cpp:20-50 | Always resets first, and remembers the service and characteristic the rows come from. The rows are then the descriptors of the first characteristic with the UUID, each once, with one insertion per row. There are none when no characteristic has the UUID. |
| `Descriptors.DescriptorsModel.AppendDescriptors` | descriptorsmodel.cpp:35-48 | Each descriptor not yet listed is appended at the current tail, in order. The list stays duplicate-free. |
| `Descriptors.Snapshot` | descriptorsmodel.cpp:28-48 | No rows when no characteristic has the UUID. Otherwise the distinct descriptors of the first matching characteristic. |
| `Descriptors.SnapshotContents` | descriptorsmodel.cpp:28-48 | The snapshot is empty when no characteristic matches. It is duplicate-free and holds exactly the first match's descriptors. |
| `Descriptors.SnapshotKeepsDistinctHandles` | descriptorsmodel.cpp:35-48 | When a characteristic's descriptors carry distinct handles, the snapshot is that list unchanged. Whole-record and handle comparison then agree. |
| `Descriptors.DescriptorsModel.RowCount` | descriptorsmodel.cpp:52-56 | The number of rows. |
| `Descriptors.DescriptorsModel.Data` | descriptorsmodel.cpp:58-81 | Empty outside [0, count) and for an unknown role. Otherwise the descriptor's name or UUID, or the value the service holds for that descriptor at the time of the call. |
| `Descriptors.CurrentValue` | descriptorsmodel.cpp:75 | A row's value is read through the service: the value of the characteristic's record for the same attribute handle, and no bytes when the characteristic or the attribute is no longer listed. |
| `Descriptors.CapturedValueIsCurrent` | descriptorsmodel.cpp:35-48 | While the service is unchanged, reading a row through it gives the value the snapshot captured, on a characteristic whose descriptors carry distinct handles. |
| `Scenario.Scan` | devicesmodel.cpp:17-40 | A sensor reported twice during a scan that then finishes is listed once, and the model is no longer running. |
| `Scenario.Connect` | servicesmodel.cpp:53-135 | After connecting and discovering a service reported twice: connected, not running, the service listed once and found by its UUID. |
| `Scenario.Bind` | characteristicsmodel.cpp:73-109 | Binding an undiscovered service, then completing its discovery, lists its characteristic. |
| `Scenario.Subscribe` | characteristicsmodel.cpp:215-236 | Subscribing writes 01 00 to the configuration descriptor. After the write completes, the row shows notifications as enabled where it did not before, and the completion handler emits exactly one `dataChanged` for that row. |
| `Scenario.Inspect` | descriptorsmodel.cpp:66-76 | After the transport writes 01 00 to the listed configuration descriptor, the row's value shows 01 00 where it showed 00 00, without a new snapshot. |

## Left out

- The radio and transport are not modelled: the controller, the service objects' discovery, and the scanner.
  - The model takes their callbacks as method calls and their answers as parameters.
  - The object `createServiceObject` returns is a parameter (null when it fails).
  - The scanner's timeout is a value the model holds.
  - Requests a handler or `update` sends are entries in the event log; the four user commands return their request instead.
- Row indices are logged as plain integers, not model indices, so index validity is not modelled. This includes the invalid index row -1 the characteristic handlers pass on.
- `roleNames`, `tr()` translation, the `errorString` texts and logging are left out, because they do not change model state. Labels are the untranslated English strings.
- Parsing QString UUIDs and addresses is left out. Operations take a `Uuid` or `Address` value.
- The lifetime of Qt objects (the guarded reference to the bound service, `delete m_controller` and `qDeleteAll(m_services)`) is left out. A deleted object is modelled as no longer referenced.
- The getters (`isRunning`, `isConnected`, `discoveryTimeout`, `service()`) are left out. They return a field, and the fields are visible in the model.
- The unused value arguments of the read, write, change and descriptor-write completion signals are left out.
- The application wiring in lowenergyscanner-ng.cpp is not part of this model.
- A service object resolves a characteristic UUID to the first characteristic carrying it. This stands in for the transport's lookup, which the model cannot see.
- Device records are compared as whole Dafny values. A device record holds only its name and address, so the other fields Qt compares (service UUIDs, device class, cached flag) are left out.
- Qt compares descriptors by the attribute they refer to, not by value. `Characteristics.CharacteristicsModel.OnDescriptorWritten` does the same, matching on the attribute handle (`Gatt.ContainsDescriptor`). The descriptors model drops duplicates by comparing whole records. `Descriptors.SnapshotKeepsDistinctHandles` shows that the two agree whenever a characteristic's descriptors carry distinct handles, as the transport reports them.
- Services.ServicesModel.OnServiceDiscovered requires that a service object it is handed carries the discovered UUID, because the object comes from `createServiceObject(serviceUuid)`, whose result the model cannot see (servicesmodel.cpp:120).
- Descriptors.DescriptorsModel.Update takes a service object, never null. The source casts its argument and calls into it without checking (descriptorsmodel.cpp:28), so a null or non-service argument is left out.
- `Characteristics.CharacteristicsModel.Read`, `Write`, `ConfigurationOf`, `EnableNotification` and `EnableIndication` require a bound service, because the source calls into the bound service without checking that one is set.
- `Characteristics.CharacteristicsModel.Write` takes the bytes already decoded from hex. `QByteArray::fromHex` on malformed text is library behaviour and is left out.
- Characteristics.CharacteristicsModel.Data: the value role gives the raw bytes rather than their hex text.
- Descriptors.DescriptorsModel.Data: the value role gives the raw bytes rather than their hex text.
- A callback the transport raises while a request is being issued (the service reporting `DiscoveringServices` from inside `discoverDetails()`, the controller reporting its connecting state or an error from inside `connectToDevice()`) is modelled as a separate handler call after the method that issued the request returns. `Characteristics.CharacteristicsModel.Update` and `Services.ServicesModel.Update` therefore end before those handlers run; calling the handler next gives the state the program ends in.
- Devices.DevicesModel.Data: the address role gives the 48-bit address as a number rather than its colon-separated text.
- Three behaviours of the code that a reader might expect to be otherwise, which the model follows as written:
  - device records are compared whole, not by address alone (devicesmodel.cpp:29);
  - when a descriptor write completes, the characteristics model finds the rows to refresh by comparing descriptors by the attribute they refer to, not by UUID (characteristicsmodel.cpp:170, `Gatt.ContainsDescriptor`). The descriptors model instead compares whole records when it drops duplicates (descriptorsmodel.cpp:37); the line above on Qt's descriptor comparison and `Descriptors.SnapshotKeepsDistinctHandles` show that the two agree when handles are distinct;
  - on Unconnected the services model leaves `connected` unchanged, because the line that would clear it is commented out (servicesmodel.cpp:86-88).

## Findings

| source | as written | input that shows it | evidently intended | confidence | as-written member | corrected member |
|---|---|---|---|---|---|---|
| characteristicsmodel.cpp:83-85 | `disconnect(m_service)` cuts only connections from the model's signals to the old service. The handlers were connected from the old service's signals (characteristicsmodel.cpp:95-176), so they stay connected. Every service ever bound keeps reaching the model, once per binding. | Bind service A, then service B, then let A report `CharacteristicReadError`. The model clears running and signals an error while bound to B. Binding A again connects A's handlers twice. | Binding a service releases the previous service's handlers, so only the bound service's signals reach the model. | not executed | `Characteristics.RewireAsWritten` (shown by `Characteristics.StaleServiceStaysWired`, `Characteristics.RebindingDuplicatesHandlers`) | `Characteristics.Rewire` (used by `Characteristics.CharacteristicsModel.Update`; handlers ignore services that are not wired) |

=== FILE: characteristic_properties.dfy ===
/**
 * The presentation of a characteristic's property bitmask: its label list,
 * the comma-joined string shown to the user, and the derived readable,
 * writable, notifiable and indicatable flags.
 *
 * The bits are those of the Characteristic Properties field, section
 * 3.3.1.1, Vol 3 Part G of the Bluetooth Core Specification.
 */
module CharacteristicProperties {
  import opened OrderedList

  const Unknown: bv8 := 0x00
  const Broadcasting: bv8 := 0x01
  const Read: bv8 := 0x02
  const WriteNoResponse: bv8 := 0x04
  const Write: bv8 := 0x08
  const Notify: bv8 := 0x10
  const Indicate: bv8 := 0x20
  const WriteSigned: bv8 := 0x40
  const ExtendedProperty: bv8 := 0x80

  /** The bit at position `k`, and its label. */
  function Bit(k: nat): bv8
    requires k < 8
  {
    (1 as bv8) << k
  }

  function Label(k: nat): string
    requires k < 8
  {
    match k
    case 0 => "Broadcasting"
    case 1 => "Read"
    case 2 => "WriteNoResponse"
    case 3 => "Write"
    case 4 => "Notify"
    case 5 => "Indicate"
    case 6 => "WriteSigned"
    case _ => "ExtendedProperty"
  }

  const UnknownLabel: string := "Unknown"

  lemma LabelInjective(i: nat, j: nat)
    requires i < 8 && j < 8 && i != j
    ensures Label(i) != Label(j)
  {
    assert |Label(i)| != |Label(j)|;
  }

  lemma LabelFacts(k: nat)
    requires k < 8
    ensures Label(k) != UnknownLabel
    ensures ',' !in Label(k)
  {
    assert |Label(k)| != |UnknownLabel|;
  }

  /** The position of the bit `tag` labels, from position `m` on; -1 when it labels none. */
  function RankFrom(tag: string, m: nat): (r: int)
    requires m <= 8
    ensures -1 <= r < 8
    ensures 0 <= r ==> m <= r && Label(r) == tag
    ensures r == -1 ==> forall k :: m <= k < 8 ==> Label(k) != tag
    decreases 8 - m
  {
    if m == 8 then -1
    else if Label(m) == tag then m
    else RankFrom(tag, m + 1)
  }

  function RankOf(tag: string): int {
    RankFrom(tag, 0)
  }

  lemma {:induction false} RankOfLabel(k: nat, m: nat)
    requires m <= k < 8
    ensures RankFrom(Label(k), m) == k
    decreases k - m
  {
    if m < k {
      LabelInjective(m, k);
      RankOfLabel(k, m + 1);
    }
  }

  /** The positions of the set bits of `pt` from position `k` on, ascending. */
  function SetBits(pt: bv8, k: nat): (ps: seq<nat>)
    requires k <= 8
    ensures forall i :: 0 <= i < |ps| ==> k <= ps[i] < 8
    decreases 8 - k
  {
    if k == 8 then []
    else (if pt & Bit(k) != 0 then [k] else []) + SetBits(pt, k + 1)
  }

  lemma {:induction false} SetBitsAreSet(pt: bv8, k: nat)
    requires k <= 8
    ensures forall i :: 0 <= i < |SetBits(pt, k)| ==> pt & Bit(SetBits(pt, k)[i]) != 0
    decreases 8 - k
  {
    if k < 8 {
      SetBitsAreSet(pt, k + 1);
      var rest := SetBits(pt, k + 1);
      var ps := SetBits(pt, k);
      if pt & Bit(k) != 0 {
        assert ps == [k] + rest;
        forall i | 0 <= i < |ps| ensures pt & Bit(ps[i]) != 0 {
          if i > 0 {
            assert ps[i] == rest[i - 1];
          }
        }
      } else {
        assert ps == rest;
      }
    }
  }

  lemma {:induction false} SetBitsAscending(pt: bv8, k: nat)
    requires k <= 8
    ensures forall i, j :: 0 <= i < j < |SetBits(pt, k)| ==> SetBits(pt, k)[i] < SetBits(pt, k)[j]
    decreases 8 - k
  {
    if k < 8 {
      SetBitsAscending(pt, k + 1);
      var rest := SetBits(pt, k + 1);
      if pt & Bit(k) != 0 {
        var ps := SetBits(pt, k);
        assert ps == [k] + rest;
        assert forall i :: 0 < i < |ps| ==> ps[i] == rest[i - 1];
      } else {
        assert SetBits(pt, k) == rest;
      }
    }
  }
  lemma {:induction false} SetBitsComplete(pt: bv8, k: nat)
    requires k <= 8
    ensures forall m :: k <= m < 8 && pt & Bit(m) != 0 ==> m in SetBits(pt, k)
    decreases 8 - k
  {
    if k < 8 {
      SetBitsComplete(pt, k + 1);
      var rest := SetBits(pt, k + 1);
      var ps := SetBits(pt, k);
      assert forall y :: y in rest ==> y in ps by {
        if pt & Bit(k) != 0 {
          assert ps == [k] + rest;
        } else {
          assert ps == rest;
        }
      }
      forall m | k <= m < 8 && pt & Bit(m) != 0
        ensures m in ps
      {
        if m == k {
          assert ps == [k] + rest;
        } else {
          assert m in rest;
        }
      }
    }
  }

  function LabelsOf(ps: seq<nat>): (r: seq<string>)
    requires forall i :: 0 <= i < |ps| ==> ps[i] < 8
  {
    seq(|ps|, i requires 0 <= i < |ps| => Label(ps[i]))
  }

  /**
   * The labels decodeProperties shows: "Unknown" alone for the empty mask,
   * otherwise the label of every set bit and of no other, in bit order.
   */
  function PropertyLabels(pt: bv8): (r: seq<string>)
    ensures pt == Unknown ==> r == [UnknownLabel]
    ensures pt != Unknown ==> |r| > 0
    ensures pt != Unknown ==> forall i :: 0 <= i < |r| ==>
      0 <= RankOf(r[i]) && r[i] == Label(RankOf(r[i])) && pt & Bit(RankOf(r[i])) != 0
    ensures pt != Unknown ==> forall k :: 0 <= k < 8 && pt & Bit(k) != 0 ==> Label(k) in r
    ensures pt != Unknown ==> forall i, j :: 0 <= i < j < |r| ==> RankOf(r[i]) < RankOf(r[j])
  {
    if pt == Unknown then [UnknownLabel]
    else
      var ps := SetBits(pt, 0);
      SetBitsAreSet(pt, 0);
      SetBitsAscending(pt, 0);
      SetBitsComplete(pt, 0);
      SomeBitSet(pt);
      LabelsOfRanks(ps);
      var r := LabelsOf(ps);
      r
  }

  lemma LabelsOfRanks(ps: seq<nat>)
    requires forall i :: 0 <= i < |ps| ==> ps[i] < 8
    ensures |LabelsOf(ps)| == |ps|
    ensures forall i :: 0 <= i < |ps| ==> LabelsOf(ps)[i] == Label(ps[i]) && RankOf(LabelsOf(ps)[i]) == ps[i]
    ensures forall k :: k in ps ==> Label(k) in LabelsOf(ps)
  {
    forall i | 0 <= i < |ps| ensures RankOf(LabelsOf(ps)[i]) == ps[i] {
      RankOfLabel(ps[i], 0);
    }
    forall k | k in ps ensures Label(k) in LabelsOf(ps) {
      var i :| 0 <= i < |ps| && ps[i] == k;
      assert LabelsOf(ps)[i] == Label(k);
    }
  }

  lemma SomeBitSet(pt: bv8)
    requires pt != Unknown
    ensures exists k :: 0 <= k < 8 && pt & Bit(k) != 0
  {
    if forall k :: 0 <= k < 7 ==> pt & Bit(k) == 0 {
      assert pt & Bit(0) == 0 && pt & Bit(1) == 0 && pt & Bit(2) == 0 && pt & Bit(3) == 0;
      assert pt & Bit(4) == 0 && pt & Bit(5) == 0 && pt & Bit(6) == 0;
      assert pt & Bit(7) != 0;
    }
  }

  /** A label is shown exactly when its bit is set. */
  lemma PropertyLabelsExact(pt: bv8, k: nat)
    requires k < 8
    ensures Label(k) in PropertyLabels(pt) <==> pt & Bit(k) != 0
  {
    var r := PropertyLabels(pt);
    LabelFacts(k);
    RankOfLabel(k, 0);
    if pt != Unknown && Label(k) in r {
      var i :| 0 <= i < |r| && r[i] == Label(k);
    }
  }

  /** QStringList::join: the items with `sep` between each two. */
  function Join(items: seq<string>, sep: char): (r: string)
    ensures |items| > 0 ==> items[0] <= r
    ensures (forall k :: 0 <= k < |items| ==> sep !in items[k]) ==>
      multiset(r)[sep] == if |items| == 0 then 0 else |items| - 1
  {
    if |items| == 0 then ""
    else if |items| == 1 then items[0]
    else items[0] + [sep] + Join(items[1..], sep)
  }

  /**
   * The property column of a characteristic row: the labels of its
   * properties, comma-separated, which splitting at the commas gives back.
   */
  function DecodeProperties(pt: bv8): (s: string)
    ensures Split(s, ',') == PropertyLabels(pt)
  {
    LabelsFreeOfComma(pt);
    SplitJoin(PropertyLabels(pt), ',');
    Join(PropertyLabels(pt), ',')
  }

  /** Splits `s` at every `sep`; the inverse of Join for items free of `sep`. */
  function Split(s: string, sep: char): (r: seq<string>)
    ensures |r| > 0
    decreases |s|
  {
    var i := IndexOf(s, sep);
    if i == -1 then [s] else [s[..i]] + Split(s[i + 1..], sep)
  }

  lemma {:induction false} SplitJoin(items: seq<string>, sep: char)
    requires |items| > 0
    requires forall k :: 0 <= k < |items| ==> sep !in items[k]
    ensures Split(Join(items, sep), sep) == items
    decreases |items|
  {
    if |items| > 1 {
      var rest := Join(items[1..], sep);
      assert Join(items, sep) == items[0] + [sep] + rest;
      SplitAtFirst(items[0], sep, rest);
      SplitJoin(items[1..], sep);
      assert items == [items[0]] + items[1..];
    }
  }

  /** Splitting cuts at the first separator, and goes on after it. */
  lemma SplitAtFirst(first: string, sep: char, rest: string)
    requires sep !in first
    ensures Split(first + [sep] + rest, sep) == [first] + Split(rest, sep)
  {
    IndexOfAfterSeparator(first, sep, rest);
    var s := first + [sep] + rest;
    assert s[..|first|] == first;
    assert s[|first| + 1..] == rest;
  }

  /** The bit a label names; none for a label of no bit. */
  function BitOf(tag: string): bv8 {
    var k := RankOf(tag);
    if k == -1 then 0 else Bit(k)
  }

  /** The mask a label list names. */
  function Encode(labels: seq<string>): bv8 {
    if labels == [] then 0 else BitOf(labels[0]) | Encode(labels[1..])
  }

  /** Reads back the mask from the text decodeProperties produced. */
  function ParseProperties(text: string): bv8 {
    Encode(Split(text, ','))
  }

  function MaskFrom(k: nat): bv8
    requires k <= 8
    decreases 8 - k
  {
    if k == 8 then 0 else Bit(k) | MaskFrom(k + 1)
  }

  /** The bits at the positions `ps`, together. */
  function OrBits(ps: seq<nat>): bv8
    requires forall i :: 0 <= i < |ps| ==> ps[i] < 8
  {
    if ps == [] then 0 else Bit(ps[0]) | OrBits(ps[1..])
  }

  lemma {:induction false} EncodeLabelsOf(ps: seq<nat>)
    requires forall i :: 0 <= i < |ps| ==> ps[i] < 8
    ensures Encode(LabelsOf(ps)) == OrBits(ps)
    decreases |ps|
  {
    if ps != [] {
      EncodeLabelsOf(ps[1..]);
      RankOfLabel(ps[0], 0);
      assert LabelsOf(ps)[1..] == LabelsOf(ps[1..]);
    }
  }

  lemma {:induction false} OrSetBits(pt: bv8, k: nat)
    requires k <= 8
    ensures OrBits(SetBits(pt, k)) == pt & MaskFrom(k)
    decreases 8 - k
  {
    if k < 8 {
      OrSetBits(pt, k + 1);
      if pt & Bit(k) != 0 {
        OrSetBitsWhenSet(pt, k);
      } else {
        OrSetBitsWhenClear(pt, k);
      }
    }
  }

  lemma OrSetBitsWhenSet(pt: bv8, k: nat)
    requires k < 8 && pt & Bit(k) != 0
    requires OrBits(SetBits(pt, k + 1)) == pt & MaskFrom(k + 1)
    ensures OrBits(SetBits(pt, k)) == pt & MaskFrom(k)
  {
    var rest := SetBits(pt, k + 1);
    var ps := [k] + rest;
    assert SetBits(pt, k) == ps;
    assert ps[1..] == rest;
    SetBitAbsorbed(pt, k, MaskFrom(k + 1));
  }

  lemma OrSetBitsWhenClear(pt: bv8, k: nat)
    requires k < 8 && pt & Bit(k) == 0
    requires OrBits(SetBits(pt, k + 1)) == pt & MaskFrom(k + 1)
    ensures OrBits(SetBits(pt, k)) == pt & MaskFrom(k)
  {
    assert SetBits(pt, k) == SetBits(pt, k + 1);
    ClearBitIgnored(pt, k, MaskFrom(k + 1));
  }

  lemma SetBitAbsorbed(pt: bv8, k: nat, m: bv8)
    requires k < 8 && pt & Bit(k) != 0
    ensures Bit(k) | (pt & m) == pt & (Bit(k) | m)
  {
  }

  lemma ClearBitIgnored(pt: bv8, k: nat, m: bv8)
    requires k < 8 && pt & Bit(k) == 0
    ensures pt & m == pt & (Bit(k) | m)
  {
  }

  lemma AllBits()
    ensures MaskFrom(0) == 0xFF
  {
  }

  /** decodeProperties loses nothing: the mask is recovered from its text. */
  lemma DecodePropertiesRoundTrip(pt: bv8)
    ensures ParseProperties(DecodeProperties(pt)) == pt
  {
    LabelsFreeOfComma(pt);
    SplitJoin(PropertyLabels(pt), ',');
    EncodePropertyLabels(pt);
  }

  lemma LabelsFreeOfComma(pt: bv8)
    ensures forall i :: 0 <= i < |PropertyLabels(pt)| ==> ',' !in PropertyLabels(pt)[i]
  {
    var labels := PropertyLabels(pt);
    forall i | 0 <= i < |labels| ensures ',' !in labels[i] {
      if pt != Unknown {
        LabelFacts(RankOf(labels[i]));
      }
    }
  }

  /** The labels of a mask name exactly its bits. */
  lemma EncodePropertyLabels(pt: bv8)
    ensures Encode(PropertyLabels(pt)) == pt
  {
    if pt == Unknown {
      assert RankOf(UnknownLabel) == -1 by {
        forall k | 0 <= k < 8 ensures Label(k) != UnknownLabel {
          LabelFacts(k);
        }
      }
      assert Encode([UnknownLabel]) == BitOf(UnknownLabel) | Encode([]);
    } else {
      EncodeLabelsOf(SetBits(pt, 0));
      OrSetBits(pt, 0);
      AllBits();
    }
  }

  /** The readable flag: the Read bit is set, exactly when the label list shows Read. */
  function IsReadable(pt: bv8): (b: bool)
    ensures b <==> "Read" in PropertyLabels(pt)
  {
    PropertyLabelsExact(pt, 1);
    assert Bit(1) == Read;
    pt & Read != 0
  }

  /** The writable flag: one of the three write bits is set, exactly when the label list shows one of them. */
  function IsWritable(pt: bv8): (b: bool)
    ensures b <==>
      "Write" in PropertyLabels(pt) || "WriteNoResponse" in PropertyLabels(pt)
      || "WriteSigned" in PropertyLabels(pt)
  {
    WriteBits(pt);
    pt & (Write | WriteNoResponse | WriteSigned) != 0
  }

  lemma WriteBits(pt: bv8)
    ensures pt & (Write | WriteNoResponse | WriteSigned) != 0 <==>
      "Write" in PropertyLabels(pt) || "WriteNoResponse" in PropertyLabels(pt)
      || "WriteSigned" in PropertyLabels(pt)
  {
    var labels := PropertyLabels(pt);
    WriteMask(pt);
    PropertyLabelsExact(pt, 2);
    PropertyLabelsExact(pt, 3);
    PropertyLabelsExact(pt, 6);
    assert Label(2) == "WriteNoResponse" && Label(3) == "Write" && Label(6) == "WriteSigned";
    assert pt & Bit(2) != 0 <==> "WriteNoResponse" in labels;
    assert pt & Bit(3) != 0 <==> "Write" in labels;
    assert pt & Bit(6) != 0 <==> "WriteSigned" in labels;
  }

  /** The write mask meets `pt` exactly when one of its three bits is set in `pt`. */
  lemma WriteMask(pt: bv8)
    ensures pt & (Write | WriteNoResponse | WriteSigned) != 0 <==>
      pt & Bit(2) != 0 || pt & Bit(3) != 0 || pt & Bit(6) != 0
  {
    assert Bit(2) == WriteNoResponse && Bit(3) == Write && Bit(6) == WriteSigned;
  }

  /** The notifiable flag: the Notify bit is set, exactly when the label list shows Notify. */
  function IsNotifiable(pt: bv8): (b: bool)
    ensures b <==> "Notify" in PropertyLabels(pt)
  {
    PropertyLabelsExact(pt, 4);
    assert Bit(4) == Notify;
    pt & Notify != 0
  }

  /** The indicatable flag: the Indicate bit is set, exactly when the label list shows Indicate. */
  function IsIndicatable(pt: bv8): (b: bool)
    ensures b <==> "Indicate" in PropertyLabels(pt)
  {
    PropertyLabelsExact(pt, 5);
    assert Bit(5) == Indicate;
    pt & Indicate != 0
  }
}

=== FILE: characteristics_model.dfy ===
/**
 * The characteristics list model: one row per distinct characteristic UUID
 * of the service object it is bound to, in the order the service reports
 * them. It follows the bound service's discovery, refreshes rows when a
 * read, write, notification or descriptor write completes, and turns the
 * user's read, write and subscribe commands into transport requests.
 */
module Characteristics {
  import opened Gatt
  import opened OrderedList
  import CharacteristicProperties
  import opened ClientConfiguration

  const NameRole := UserRole + 1
  const UuidRole := UserRole + 2
  const PropertiesRole := UserRole + 3
  const WritableRole := UserRole + 4
  const ReadableRole := UserRole + 5
  const NotifiableRole := UserRole + 6
  const IndicatableRole := UserRole + 7
  const NotificationEnabledRole := UserRole + 8
  const IndicationEnabledRole := UserRole + 9
  const ValueRole := UserRole + 10

  function UuidsOf(cs: seq<Characteristic>): (us: seq<Uuid>)
    ensures |us| == |cs|
    ensures forall i :: 0 <= i < |cs| ==> us[i] == cs[i].uuid
  {
    seq(|cs|, i requires 0 <= i < |cs| => cs[i].uuid)
  }

  /** The running-state signal `setRunning(now)` emits when the flag was `was`. */
  function RunningEvents(was: bool, now: bool): seq<Event> {
    if was == now then [] else [RunningChanged(now)]
  }

  /**
   * The services whose signals reach the model after it binds `next`, as
   * the model is written: releasing the previous service only cuts
   * connections from the model to that service, while the handlers were
   * connected from the service's signals, so every service ever bound
   * stays connected, once per binding.
   */
  function RewireAsWritten(wired: seq<RemoteService>, next: RemoteService?): (r: seq<RemoteService>)
    ensures wired <= r
    ensures next != null ==> |r| == |wired| + 1 && r[|wired|] == next
  {
    if next == null then wired else wired + [next]
  }

  /** The services whose signals reach the model after it binds `next`: `next` alone. */
  function Rewire(wired: seq<RemoteService>, next: RemoteService?): (r: seq<RemoteService>)
    ensures |r| <= 1
    ensures forall i :: 0 <= i < |r| ==> r[i] == next
    ensures next != null ==> next in r
  {
    if next == null then [] else [next]
  }

  /** After binding `a` and then `b`, `a`'s signals still reach the model as written. */
  lemma StaleServiceStaysWired(a: RemoteService, b: RemoteService)
    requires a != b
    ensures a in RewireAsWritten(RewireAsWritten([], a), b)
    ensures a !in Rewire(Rewire([], a), b)
  {
    assert RewireAsWritten(RewireAsWritten([], a), b)[0] == a;
  }

  /** Binding `a`, then `b`, then `a` again connects `a`'s signals twice as written. */
  lemma RebindingDuplicatesHandlers(a: RemoteService, b: RemoteService)
    ensures RewireAsWritten(RewireAsWritten(RewireAsWritten([], a), b), a) == [a, b, a]
    ensures Rewire(Rewire(Rewire([], a), b), a) == [a]
  {
  }

  /** The descriptors of the characteristic `cs` resolves `uuid` to; none for an invalid one. */
  function DescriptorsAt(cs: seq<Characteristic>, uuid: Uuid): (ds: seq<Descriptor>)
    ensures FindCharacteristic(cs, uuid).None? ==> ds == []
    ensures FindCharacteristic(cs, uuid).Some? ==> ds == FindCharacteristic(cs, uuid).value.descriptors
  {
    match FindCharacteristic(cs, uuid)
    case None => []
    case Some(c) => c.descriptors
  }

  /** For each row of `us`, whether its characteristic lists the descriptor `d` refers to. */
  function HoldsDescriptor(us: seq<Uuid>, cs: seq<Characteristic>, d: Descriptor): (flags: seq<bool>)
    ensures |flags| == |us|
    ensures forall k :: 0 <= k < |us| ==> flags[k] == ContainsDescriptor(DescriptorsAt(cs, us[k]), d)
  {
    seq(|us|, k requires 0 <= k < |us| => ContainsDescriptor(DescriptorsAt(cs, us[k]), d))
  }

  /**
   * Which rows hold a descriptor does not depend on the value the written
   * record carries: a record with the value just written finds the rows
   * whose characteristic still lists the descriptor with its old value.
   */
  lemma HoldersIgnoreValue(us: seq<Uuid>, cs: seq<Characteristic>, d: Descriptor, v: Bytes)
    ensures HoldsDescriptor(us, cs, d.(value := v)) == HoldsDescriptor(us, cs, d)
    ensures forall k :: 0 <= k < |us| && d in DescriptorsAt(cs, us[k]) ==>
      HoldsDescriptor(us, cs, d.(value := v))[k]
  {
  }

  /** The positions, ascending, at which `flags` holds. */
  function RowsWhere(flags: seq<bool>): seq<nat>
    decreases |flags|
  {
    if flags == [] then []
    else
      var n := |flags| - 1;
      RowsWhere(flags[..n]) + (if flags[n] then [n] else [])
  }

  lemma {:induction false} RowsWhereMembers(flags: seq<bool>)
    ensures forall k :: k in RowsWhere(flags) <==> 0 <= k < |flags| && flags[k]
    decreases |flags|
  {
    if flags != [] {
      var n := |flags| - 1;
      RowsWhereMembers(flags[..n]);
      assert forall k :: 0 <= k < n ==> flags[..n][k] == flags[k];
    }
  }

  lemma {:induction false} RowsWhereAscending(flags: seq<bool>)
    ensures forall i, j :: 0 <= i < j < |RowsWhere(flags)| ==> RowsWhere(flags)[i] < RowsWhere(flags)[j]
    decreases |flags|
  {
    if flags != [] {
      var n := |flags| - 1;
      RowsWhereAscending(flags[..n]);
      RowsWhereMembers(flags[..n]);
      var init := RowsWhere(flags[..n]);
      assert forall i :: 0 <= i < |init| ==> init[i] in init;
    }
  }

  lemma RowsWhereStep(flags: seq<bool>, k: nat)
    requires k < |flags|
    ensures RowsWhere(flags[..k + 1]) == RowsWhere(flags[..k]) + (if flags[k] then [k] else [])
  {
    assert flags[..k + 1][..k] == flags[..k];
  }

  /** One single-row refresh signal per row of `rows`, in order. */
  function RefreshEvents(rows: seq<nat>): seq<Event>
  {
    if rows == [] then []
    else RefreshEvents(rows[..|rows| - 1]) + [DataChanged(rows[|rows| - 1], rows[|rows| - 1])]
  }

  lemma {:induction false} RefreshEventsSpec(rows: seq<nat>)
    ensures |RefreshEvents(rows)| == |rows|
    ensures forall i :: 0 <= i < |rows| ==> RefreshEvents(rows)[i] == DataChanged(rows[i], rows[i])
  {
    if rows != [] {
      RefreshEventsSpec(rows[..|rows| - 1]);
    }
  }

  lemma RefreshEventsStep(rows: seq<nat>, k: nat)
    ensures RefreshEvents(rows + [k]) == RefreshEvents(rows) + [DataChanged(k, k)]
  {
    assert (rows + [k])[..|rows|] == rows;
  }

  class CharacteristicsModel {
    var running: bool
    /** The bound service object; null when none is set. */
    var service: RemoteService?
    /** The rows: characteristic UUIDs of `service`, each once. */
    var uuids: seq<Uuid>
    /** The services whose signals are connected to this model's handlers. */
    var wired: seq<RemoteService>
    /** Signals emitted and requests sent to the transport, oldest first. */
    ghost var trace: seq<Event>

    ghost predicate Valid()
      reads this
    {
      && NoDuplicates(uuids)
      && (service == null ==> uuids == [])
      && wired == (if service == null then [] else [service])
    }

    constructor ()
      ensures Valid()
      ensures !running && service == null && uuids == [] && wired == [] && trace == []
    {
      running := false;
      service := null;
      uuids := [];
      wired := [];
      trace := [];
    }

    method SetRunning(r: bool)
      modifies this`running, this`trace
      ensures running == r
      ensures trace == old(trace) + RunningEvents(old(running), r)
    {
      if running == r {
        return;
      }
      running := r;
      trace := trace + [RunningChanged(r)];
    }

    /**
     * Bind the model to service object `s`. Ignored while running or when
     * `s` is already bound. Otherwise the rows are reset; a discovered
     * service fills them at once, one that still needs discovery is asked
     * to discover its details.
     */
    method Update(s: RemoteService?)
      requires Valid()
      modifies this`running, this`service, this`uuids, this`wired, this`trace
      ensures Valid()
      ensures old(running) || old(service) == s ==>
        running == old(running) && service == old(service) && uuids == old(uuids)
        && wired == old(wired) && trace == old(trace)
      ensures !old(running) && old(service) != s ==>
        service == s && !running && wired == Rewire(old(wired), s)
      ensures !old(running) && old(service) != s && s != null && s.state == ServiceDiscovered ==>
        uuids == Distinct(UuidsOf(s.characteristics))
        && trace == old(trace) + [ModelReset] + Inserted(0, |uuids|)
      ensures !old(running) && old(service) != s && s != null && s.state == DiscoveryRequired ==>
        uuids == [] && trace == old(trace) + [ModelReset, Requested(DiscoverDetails)]
      ensures !old(running) && old(service) != s
              && (s == null || (s.state != ServiceDiscovered && s.state != DiscoveryRequired)) ==>
        uuids == [] && trace == old(trace) + [ModelReset]
    {
      if running || service == s {
        return;
      }
      wired := Rewire(wired, s);
      service := s;
      uuids := [];
      trace := trace + [ModelReset];
      SetRunning(false);
      assert trace == old(trace) + [ModelReset];
      if s != null {
        if s.state == ServiceDiscovered {
          UpdateCharacteristics();
          assert trace == old(trace) + [ModelReset] + Inserted(0, |uuids|);
          SetRunning(false);
        } else if s.state == DiscoveryRequired {
          trace := trace + [Requested(DiscoverDetails)];
        }
      }
    }

    /** Append, in order, each characteristic UUID of the bound service not yet in the rows. */
    method UpdateCharacteristics()
      requires Valid() && service != null
      modifies this`uuids, this`trace
      ensures Valid()
      ensures uuids == AppendAll(old(uuids), UuidsOf(service.characteristics))
      ensures trace == old(trace) + Inserted(|old(uuids)|, |uuids|)
    {
      var cs := service.characteristics;
      ghost var all := UuidsOf(cs);
      var i := 0;
      while i < |cs|
        invariant 0 <= i <= |cs|
        invariant uuids == AppendAll(old(uuids), all[..i])
        invariant trace == old(trace) + Inserted(|old(uuids)|, |uuids|)
      {
        ghost var before := uuids;
        var u := cs[i].uuid;
        if u !in uuids {
          var rows := |uuids|;
          InsertedStep(old(trace), |old(uuids)|, rows);
          uuids := uuids + [u];
          trace := trace + [RowsInserted(rows)];
        }
        assert uuids == AppendNew(before, all[i]);
        AppendAllStep(old(uuids), all, i);
        i := i + 1;
      }
      assert all[..|cs|] == all;
      AppendAllNoDuplicates(old(uuids), all);
    }

    /** The bound service's state changed to `state`; `from` is the service that signalled. */
    method OnStateChanged(from: RemoteService, state: ServiceState)
      requires Valid()
      modifies this`running, this`uuids, this`trace
      ensures Valid()
      ensures from !in wired || state !in {DiscoveringServices, ServiceDiscovered} ==>
        running == old(running) && uuids == old(uuids) && trace == old(trace)
      ensures from in wired && state == DiscoveringServices ==>
        running && uuids == old(uuids) && trace == old(trace) + RunningEvents(old(running), true)
      ensures from in wired && state == ServiceDiscovered ==>
        service != null && !running
        && uuids == AppendAll(old(uuids), UuidsOf(service.characteristics))
        && trace == old(trace) + Inserted(|old(uuids)|, |uuids|) + RunningEvents(old(running), false)
    {
      if from !in wired {
        return;
      }
      match state {
        case DiscoveringServices =>
          SetRunning(true);
        case ServiceDiscovered =>
          UpdateCharacteristics();
          SetRunning(false);
        case _ =>
      }
    }

    /**
     * The bound service reported `error`: discovery stops, every error but a
     * failed descriptor read is surfaced, and all rows are refreshed.
     */
    method OnError(from: RemoteService, error: ServiceError)
      requires Valid()
      modifies this`running, this`trace
      ensures from !in wired ==> running == old(running) && trace == old(trace)
      ensures from in wired ==> !running
      ensures from in wired ==>
        trace == old(trace) + RunningEvents(old(running), false)
                 + (if error != DescriptorReadError then [ErrorOccurred] else [])
                 + [DataChanged(0, |uuids| - 1)]
    {
      if from !in wired {
        return;
      }
      SetRunning(false);
      if error != DescriptorReadError {
        trace := trace + [ErrorOccurred];
      }
      trace := trace + [DataChanged(0, |uuids| - 1)];
    }

    /**
     * A read, write or value change of characteristic `c` completed: the row
     * holding its UUID is refreshed (row -1, an invalid index, when none does).
     */
    method OnCharacteristicUpdated(from: RemoteService, c: Characteristic)
      requires Valid()
      modifies this`trace
      ensures from !in wired ==> trace == old(trace)
      ensures from in wired ==> exists row ::
        trace == old(trace) + [DataChanged(row, row)]
        && (row == -1 <==> c.uuid !in uuids)
        && (0 <= row ==> row < |uuids| && uuids[row] == c.uuid)
    {
      if from !in wired {
        return;
      }
      var row := IndexOf(uuids, c.uuid);
      trace := trace + [DataChanged(row, row)];
    }

    /** A write of descriptor `d` completed: every row whose characteristic lists that descriptor is refreshed. */
    method OnDescriptorWritten(from: RemoteService, d: Descriptor)
      requires Valid()
      modifies this`trace
      ensures from !in wired ==> trace == old(trace)
      ensures from in wired ==> service != null
      ensures from in wired && service != null ==>
        trace == old(trace) + RefreshEvents(RowsWhere(HoldsDescriptor(uuids, service.characteristics, d)))
    {
      if from !in wired {
        return;
      }
      var us := uuids;
      var cs := service.characteristics;
      ghost var flags := HoldsDescriptor(us, cs, d);
      var k := 0;
      while k < |us|
        invariant 0 <= k <= |us|
        invariant trace == old(trace) + RefreshEvents(RowsWhere(flags[..k]))
      {
        ghost var done := RowsWhere(flags[..k]);
        var holds := ContainsDescriptor(DescriptorsAt(cs, us[k]), d);
        assert holds == flags[k];
        RowsWhereStep(flags, k);
        if holds {
          assert RowsWhere(flags[..k + 1]) == done + [k];
          RefreshEventsStep(done, k);
          trace := trace + [DataChanged(k, k)];
          assert trace == old(trace) + RefreshEvents(done + [k]);
        } else {
          assert RowsWhere(flags[..k + 1]) == done;
        }
        k := k + 1;
      }
      assert flags[..|us|] == flags;
    }

    /** The request that reads the characteristic with UUID `uuid`; none when the service has no such characteristic. */
    function Read(uuid: Uuid): (r: Option<Request>)
      reads this, service
      requires service != null
      ensures r.None? <==> forall c :: c in service.characteristics ==> c.uuid != uuid
      ensures r.Some? ==>
        r.value.ReadCharacteristic?
        && r.value.characteristic in service.characteristics && r.value.characteristic.uuid == uuid
    {
      match FindCharacteristic(service.characteristics, uuid)
      case None => None
      case Some(c) => Some(ReadCharacteristic(c))
    }

    /** The request that writes `payload` to the characteristic with UUID `uuid`, if there is one. */
    function Write(uuid: Uuid, payload: Bytes): (r: Option<Request>)
      reads this, service
      requires service != null
      ensures r.None? <==> forall c :: c in service.characteristics ==> c.uuid != uuid
      ensures r.Some? ==>
        r.value.WriteCharacteristic? && r.value.payload == payload
        && r.value.characteristic in service.characteristics && r.value.characteristic.uuid == uuid
    {
      match FindCharacteristic(service.characteristics, uuid)
      case None => None
      case Some(c) => Some(WriteCharacteristic(c, payload))
    }

    /** The configuration descriptor of the characteristic with UUID `uuid`, if both exist. */
    function ConfigurationOf(uuid: Uuid): (r: Option<Descriptor>)
      reads this, service
      requires service != null
      ensures r.None? <==>
        (forall c :: c in service.characteristics ==> c.uuid != uuid)
        || DescriptorOf(FindCharacteristic(service.characteristics, uuid).value,
                        ClientCharacteristicConfiguration).None?
      ensures r.Some? ==>
        r.value.uuid == ClientCharacteristicConfiguration
        && exists c :: c in service.characteristics && c.uuid == uuid && r.value in c.descriptors
    {
      match FindCharacteristic(service.characteristics, uuid)
      case None => None
      case Some(c) => DescriptorOf(c, ClientCharacteristicConfiguration)
    }

    /**
     * The request that subscribes to (or, `enable` false, unsubscribes from)
     * notifications of the characteristic with UUID `uuid`: a write of the
     * configuration word to its configuration descriptor. None when the
     * characteristic or its configuration descriptor is missing.
     */
    function EnableNotification(uuid: Uuid, enable: bool): (r: Option<Request>)
      reads this, service
      requires service != null
      ensures r.None? <==> ConfigurationOf(uuid).None?
      ensures r.Some? ==>
        r.value.WriteDescriptor?
        && r.value.descriptor == ConfigurationOf(uuid).value
        && r.value.payload == LittleEndian(if enable then NotificationsBit else Disabled)
    {
      match ConfigurationOf(uuid)
      case None => None
      case Some(d) => Some(WriteDescriptor(d, NotificationPayload(enable)))
    }

    /** As EnableNotification, for indications. */
    function EnableIndication(uuid: Uuid, enable: bool): (r: Option<Request>)
      reads this, service
      requires service != null
      ensures r.None? <==> ConfigurationOf(uuid).None?
      ensures r.Some? ==>
        r.value.WriteDescriptor?
        && r.value.descriptor == ConfigurationOf(uuid).value
        && r.value.payload == LittleEndian(if enable then IndicationsBit else Disabled)
    {
      match ConfigurationOf(uuid)
      case None => None
      case Some(d) => Some(WriteDescriptor(d, IndicationPayload(enable)))
    }

    function RowCount(): (n: nat)
      reads this
      ensures n == |uuids|
    {
      |uuids|
    }

    /**
     * The value shown for `role` in row `row`: nothing outside the rows,
     * for a UUID the service no longer resolves, or for an unknown role.
     */
    function Data(row: int, role: int): (v: Variant)
      reads this, service
      requires Valid()
      ensures !(0 <= row < |uuids|) ==> v == Invalid
      ensures 0 <= row < |uuids| ==> service != null
      ensures 0 <= row < |uuids| && FindCharacteristic(service.characteristics, uuids[row]).None? ==> v == Invalid
      ensures 0 <= row < |uuids| && FindCharacteristic(service.characteristics, uuids[row]).Some? ==>
        var c := FindCharacteristic(service.characteristics, uuids[row]).value;
        var cccd := DescriptorOf(c, ClientCharacteristicConfiguration);
        && (role == NameRole ==> v == Text(c.name))
        && (role == UuidRole ==> v == UuidValue(uuids[row]))
        && (role == PropertiesRole ==> v == Text(CharacteristicProperties.DecodeProperties(c.properties)))
        && (role == WritableRole ==> v == Flag(CharacteristicProperties.IsWritable(c.properties)))
        && (role == ReadableRole ==> v == Flag(CharacteristicProperties.IsReadable(c.properties)))
        && (role == NotifiableRole ==> v == Flag(CharacteristicProperties.IsNotifiable(c.properties)))
        && (role == IndicatableRole ==> v == Flag(CharacteristicProperties.IsIndicatable(c.properties)))
        && (role == NotificationEnabledRole ==> v == Flag(NotificationEnabled(cccd)))
        && (role == IndicationEnabledRole ==> v == Flag(IndicationEnabled(cccd)))
        && (role == ValueRole ==> v == Raw(c.value))
        && (!(NameRole <= role <= ValueRole) ==> v == Invalid)
    {
      if row < 0 || row >= |uuids| then Invalid
      else
        match FindCharacteristic(service.characteristics, uuids[row])
        case None => Invalid
        case Some(c) =>
          var pt := c.properties;
          var cccd := DescriptorOf(c, ClientCharacteristicConfiguration);
          if role == NameRole then Text(c.name)
          else if role == UuidRole then UuidValue(c.uuid)
          else if role == PropertiesRole then Text(CharacteristicProperties.DecodeProperties(pt))
          else if role == WritableRole then Flag(CharacteristicProperties.IsWritable(pt))
          else if role == ReadableRole then Flag(CharacteristicProperties.IsReadable(pt))
          else if role == NotifiableRole then Flag(CharacteristicProperties.IsNotifiable(pt))
          else if role == IndicatableRole then Flag(CharacteristicProperties.IsIndicatable(pt))
          else if role == NotificationEnabledRole then Flag(NotificationEnabled(cccd))
          else if role == IndicationEnabledRole then Flag(IndicationEnabled(cccd))
          else if role == ValueRole then Raw(c.value)
          else Invalid
    }
  }

  /** No row ever shows notifications and indications as both enabled. */
  lemma SubscriptionFlagsExclusive(m: CharacteristicsModel, row: int)
    requires m.Valid()
    ensures !(m.Data(row, NotificationEnabledRole) == Flag(true)
              && m.Data(row, IndicationEnabledRole) == Flag(true))
  {
    if 0 <= row < |m.uuids| {
      var r := FindCharacteristic(m.service.characteristics, m.uuids[row]);
      if r.Some? {
        EnabledFlagsExclusive(DescriptorOf(r.value, ClientCharacteristicConfiguration));
      }
    }
  }

  /** Rows are refreshed after a descriptor write exactly when their characteristic holds it. */
  lemma DescriptorWriteRefreshesHolders(m: CharacteristicsModel, d: Descriptor, row: int)
    requires m.Valid() && m.service != null
    ensures DataChanged(row, row) in RefreshEvents(RowsWhere(HoldsDescriptor(m.uuids, m.service.characteristics, d)))
      <==> 0 <= row < |m.uuids| && ContainsDescriptor(DescriptorsAt(m.service.characteristics, m.uuids[row]), d)
  {
    var flags := HoldsDescriptor(m.uuids, m.service.characteristics, d);
    var rows := RowsWhere(flags);
    RowsWhereMembers(flags);
    var es := RefreshEvents(rows);
    RefreshEventsSpec(rows);
    if DataChanged(row, row) in es {
      var i :| 0 <= i < |es| && es[i] == DataChanged(row, row);
      assert rows[i] == row;
    }
    if 0 <= row && row in rows {
      var i :| 0 <= i < |rows| && rows[i] == row;
      assert es[i] == DataChanged(row, row);
    }
  }
}

=== FILE: client_configuration.dfy ===
/**
 * The Client Characteristic Configuration descriptor: the 2-byte
 * little-endian value a client writes to subscribe to notifications or
 * indications, and the subscription flags read back from it (section
 * 3.3.3.3, Vol 3 Part G of the Bluetooth Core Specification).
 */
module ClientConfiguration {
  import opened Gatt

  const Disabled: bv16 := 0x0000
  const NotificationsBit: bv16 := 0x0001
  const IndicationsBit: bv16 := 0x0002

  /** A 16-bit value as the two bytes sent on air, least significant first. */
  function LittleEndian(v: bv16): (b: Bytes)
    ensures |b| == 2
    ensures FromLittleEndian(b) == v
  {
    [(v & 0xFF) as bv8, (v >> 8) as bv8]
  }

  function FromLittleEndian(b: Bytes): bv16
    requires |b| == 2
  {
    ((b[1] as bv16) << 8) | (b[0] as bv16)
  }

  lemma FromLittleEndianInverse(b: Bytes)
    requires |b| == 2
    ensures LittleEndian(FromLittleEndian(b)) == b
  {
  }

  /** The bytes enableNotification writes: 01 00 to enable, 00 00 to disable. */
  function NotificationPayload(enable: bool): (b: Bytes)
    ensures b == LittleEndian(if enable then NotificationsBit else Disabled)
  {
    if enable then [0x01, 0x00] else [0x00, 0x00]
  }

  /** The bytes enableIndication writes: 02 00 to enable, 00 00 to disable. */
  function IndicationPayload(enable: bool): (b: Bytes)
    ensures b == LittleEndian(if enable then IndicationsBit else Disabled)
  {
    if enable then [0x02, 0x00] else [0x00, 0x00]
  }

  /**
   * Notifications are on when the descriptor is valid and holds exactly
   * 01 00: two bytes that read, little-endian, as the notifications word.
   */
  function NotificationEnabled(cccd: Option<Descriptor>): (b: bool)
    ensures b <==>
      cccd.Some? && |cccd.value.value| == 2 && FromLittleEndian(cccd.value.value) == NotificationsBit
  {
    cccd.Some? && cccd.value.value == [0x01, 0x00]
  }

  /**
   * Indications are on when the descriptor is valid and holds exactly
   * 02 00: two bytes that read, little-endian, as the indications word.
   */
  function IndicationEnabled(cccd: Option<Descriptor>): (b: bool)
    ensures b <==>
      cccd.Some? && |cccd.value.value| == 2 && FromLittleEndian(cccd.value.value) == IndicationsBit
  {
    cccd.Some? && cccd.value.value == [0x02, 0x00]
  }

  lemma EnabledFlagsExclusive(cccd: Option<Descriptor>)
    ensures !(NotificationEnabled(cccd) && IndicationEnabled(cccd))
  {
  }

  /**
   * Once a write of a payload has completed, the descriptor's value is that
   * payload: the flags then read back exactly what was asked for.
   */
  lemma PayloadReadsBack(d: Descriptor, enable: bool)
    ensures NotificationEnabled(Some(d.(value := NotificationPayload(enable)))) == enable
    ensures !IndicationEnabled(Some(d.(value := NotificationPayload(enable))))
    ensures IndicationEnabled(Some(d.(value := IndicationPayload(enable)))) == enable
    ensures !NotificationEnabled(Some(d.(value := IndicationPayload(enable))))
  {
  }
}

=== FILE: descriptors_model.dfy ===
/**
 * The descriptors list model: a snapshot of the descriptors of one
 * characteristic of a service object, each once, in the order the
 * characteristic lists them.
 */
module Descriptors {
  import opened Gatt
  import opened OrderedList

  const NameRole := UserRole + 1
  const UuidRole := UserRole + 2
  const ValueRole := UserRole + 3

  /** The rows a snapshot of characteristic `uuid` of `cs` holds. */
  function Snapshot(cs: seq<Characteristic>, uuid: Uuid): (ds: seq<Descriptor>)
    ensures FindCharacteristic(cs, uuid).None? ==> ds == []
    ensures FindCharacteristic(cs, uuid).Some? ==> ds == Distinct(FindCharacteristic(cs, uuid).value.descriptors)
  {
    match FindCharacteristic(cs, uuid)
    case None => []
    case Some(c) => Distinct(c.descriptors)
  }

  /**
   * The value a row's descriptor `d` of characteristic `uuid` shows now: a
   * descriptor is read through its service at call time, and gives no bytes
   * once the service no longer lists it.
   */
  function CurrentValue(cs: seq<Characteristic>, uuid: Uuid, d: Descriptor): (v: Bytes)
    ensures FindCharacteristic(cs, uuid).None? ==> v == []
    ensures FindCharacteristic(cs, uuid).Some? && !ContainsDescriptor(FindCharacteristic(cs, uuid).value.descriptors, d) ==>
      v == []
    ensures FindCharacteristic(cs, uuid).Some? && ContainsDescriptor(FindCharacteristic(cs, uuid).value.descriptors, d) ==>
      exists e :: e in FindCharacteristic(cs, uuid).value.descriptors && SameDescriptor(e, d) && v == e.value
  {
    match FindCharacteristic(cs, uuid)
    case None => []
    case Some(c) =>
      match RecordOf(c.descriptors, d)
      case None => []
      case Some(e) => e.value
  }

  class DescriptorsModel {
    /** The rows. */
    var descriptors: seq<Descriptor>
    /**
     * The service object and the characteristic the rows were taken from.
     * Each row refers back to the service, the way a Qt descriptor does.
     */
    var service: RemoteService?
    var characteristic: Uuid
    /** Signals emitted, oldest first. */
    ghost var trace: seq<Event>

    ghost predicate Valid()
      reads this
    {
      NoDuplicates(descriptors)
    }

    constructor ()
      ensures Valid()
      ensures descriptors == [] && service == null && trace == []
    {
      descriptors := [];
      service := null;
      characteristic := 0;
      trace := [];
    }

    /**
     * Empty the list, then fill it with the descriptors of the first
     * characteristic of `service` whose UUID is `uuid`, each once.
     */
    method Update(service: RemoteService, uuid: Uuid)
      modifies this`descriptors, this`service, this`characteristic, this`trace
      ensures Valid()
      ensures this.service == service && characteristic == uuid
      ensures descriptors == Snapshot(service.characteristics, uuid)
      ensures trace == old(trace) + [ModelReset] + Inserted(0, |descriptors|)
    {
      descriptors := [];
      this.service := service;
      characteristic := uuid;
      trace := trace + [ModelReset];
      var found := FindCharacteristic(service.characteristics, uuid);
      if found.Some? {
        AppendDescriptors(found.value.descriptors);
      }
    }

    /** Append, in order, each of `ds` not yet listed, one row-insertion signal per row. */
    method AppendDescriptors(ds: seq<Descriptor>)
      requires Valid()
      modifies this`descriptors, this`trace
      ensures Valid()
      ensures descriptors == AppendAll(old(descriptors), ds)
      ensures trace == old(trace) + Inserted(|old(descriptors)|, |descriptors|)
    {
      var i := 0;
      while i < |ds|
        invariant 0 <= i <= |ds|
        invariant descriptors == AppendAll(old(descriptors), ds[..i])
        invariant trace == old(trace) + Inserted(|old(descriptors)|, |descriptors|)
      {
        ghost var before := descriptors;
        var d := ds[i];
        if d !in descriptors {
          var rows := |descriptors|;
          InsertedStep(old(trace), |old(descriptors)|, rows);
          descriptors := descriptors + [d];
          trace := trace + [RowsInserted(rows)];
        }
        assert descriptors == AppendNew(before, d);
        AppendAllStep(old(descriptors), ds, i);
        i := i + 1;
      }
      assert ds[..|ds|] == ds;
      AppendAllNoDuplicates(old(descriptors), ds);
    }

    function RowCount(): (n: nat)
      reads this
      ensures n == |descriptors|
    {
      |descriptors|
    }

    /**
     * The descriptor's name, UUID or value for row `row`; nothing outside the
     * rows or for another role. The value is the one the service holds now.
     */
    function Data(row: int, role: int): (v: Variant)
      reads this, service
      ensures !(0 <= row < |descriptors|) ==> v == Invalid
      ensures 0 <= row < |descriptors| && role == NameRole ==> v == Text(descriptors[row].name)
      ensures 0 <= row < |descriptors| && role == UuidRole ==> v == UuidValue(descriptors[row].uuid)
      ensures 0 <= row < |descriptors| && role == ValueRole ==>
        v == Raw(if service == null then [] else CurrentValue(service.characteristics, characteristic, descriptors[row]))
      ensures !(NameRole <= role <= ValueRole) ==> v == Invalid
    {
      if row < 0 || row >= |descriptors| then Invalid
      else if role == NameRole then Text(descriptors[row].name)
      else if role == UuidRole then UuidValue(descriptors[row].uuid)
      else if role == ValueRole then
        Raw(if service == null then [] else CurrentValue(service.characteristics, characteristic, descriptors[row]))
      else Invalid
    }
  }

  /**
   * A snapshot lists exactly the descriptors of the first characteristic
   * with the UUID, each once and in their order, and none when no
   * characteristic has it.
   */
  lemma SnapshotContents(cs: seq<Characteristic>, uuid: Uuid)
    ensures (forall c :: c in cs ==> c.uuid != uuid) ==> Snapshot(cs, uuid) == []
    ensures NoDuplicates(Snapshot(cs, uuid))
    ensures forall i :: 0 <= i < |cs| && cs[i].uuid == uuid && (forall j :: 0 <= j < i ==> cs[j].uuid != uuid) ==>
      forall d :: d in Snapshot(cs, uuid) <==> d in cs[i].descriptors
  {
    var r := FindCharacteristic(cs, uuid);
    if r.Some? {
      var k :| 0 <= k < |cs| && cs[k] == r.value && forall j :: 0 <= j < k ==> cs[j].uuid != uuid;
      AppendAllMembers([], r.value.descriptors);
      assert forall i :: 0 <= i < |cs| && cs[i].uuid == uuid && (forall j :: 0 <= j < i ==> cs[j].uuid != uuid) ==> i == k;
    } else {
      forall i | 0 <= i < |cs| ensures cs[i].uuid != uuid {
        assert cs[i] in cs;
      }
    }
  }

  /**
   * The rows drop duplicates by comparing whole records, while Qt compares
   * descriptors by attribute handle. The two agree on every list a
   * characteristic reports, since its descriptors carry distinct handles:
   * then neither drops anything and the rows are the list itself.
   */
  lemma SnapshotKeepsDistinctHandles(cs: seq<Characteristic>, uuid: Uuid)
    requires FindCharacteristic(cs, uuid).Some?
    requires var ds := FindCharacteristic(cs, uuid).value.descriptors;
      forall i, j :: 0 <= i < j < |ds| ==> ds[i].handle != ds[j].handle
    ensures Snapshot(cs, uuid) == FindCharacteristic(cs, uuid).value.descriptors
  {
    var ds := FindCharacteristic(cs, uuid).value.descriptors;
    assert [] + ds == ds;
    AppendAllKeepsDistinct([], ds);
  }

  /**
   * Until the service changes, a row shows the value it was captured with:
   * on a characteristic whose descriptors carry distinct handles, reading a
   * row through the service gives back the snapshot's own value.
   */
  lemma CapturedValueIsCurrent(cs: seq<Characteristic>, uuid: Uuid, row: nat)
    requires FindCharacteristic(cs, uuid).Some?
    requires var ds := FindCharacteristic(cs, uuid).value.descriptors;
      forall i, j :: 0 <= i < j < |ds| ==> ds[i].handle != ds[j].handle
    requires row < |Snapshot(cs, uuid)|
    ensures CurrentValue(cs, uuid, Snapshot(cs, uuid)[row]) == Snapshot(cs, uuid)[row].value
  {
    SnapshotKeepsDistinctHandles(cs, uuid);
    RecordOfDistinct(FindCharacteristic(cs, uuid).value.descriptors, row);
  }
}

=== FILE: devices_model.dfy ===
/**
 * The devices list model: runs a low-energy scan and lists every device
 * record the scan reports, each once, in the order first reported. A new
 * scan adds to the list; it never empties it.
 */
module Devices {
  import opened Gatt
  import opened OrderedList

  const NameRole := UserRole + 1
  const AddressRole := UserRole + 2

  class DevicesModel {
    var running: bool
    /** The rows: device records as reported by the scan. */
    var devices: seq<DeviceInfo>
    /** The scan's low-energy discovery timeout in milliseconds, as the scanner holds it. */
    var discoveryTimeout: int
    /** Signals emitted and requests sent to the scanner, oldest first. */
    ghost var trace: seq<Event>

    ghost predicate Valid()
      reads this
    {
      NoDuplicates(devices)
    }

    /** A fresh model over a scanner whose timeout is `timeout`. */
    constructor (timeout: int)
      ensures Valid()
      ensures !running && devices == [] && discoveryTimeout == timeout && trace == []
    {
      running := false;
      devices := [];
      discoveryTimeout := timeout;
      trace := [];
    }

    method SetRunning(r: bool)
      modifies this`running, this`trace
      ensures running == r
      ensures trace == old(trace) + (if old(running) == r then [] else [RunningChanged(r)])
    {
      if running == r {
        return;
      }
      running := r;
      trace := trace + [RunningChanged(r)];
    }

    method SetDiscoveryTimeout(timeout: int)
      modifies this`discoveryTimeout, this`trace
      ensures discoveryTimeout == timeout
      ensures trace == old(trace) + (if old(discoveryTimeout) == timeout then [] else [DiscoveryTimeoutChanged(timeout)])
    {
      if discoveryTimeout == timeout {
        return;
      }
      discoveryTimeout := timeout;
      trace := trace + [DiscoveryTimeoutChanged(timeout)];
    }

    /** Start a scan unless one is running. Listed devices stay listed. */
    method Update()
      requires Valid()
      modifies this`running, this`trace
      ensures Valid()
      ensures running
      ensures devices == old(devices)
      ensures trace == old(trace) + (if old(running) then [] else [RunningChanged(true), Requested(StartScan)])
    {
      if running {
        return;
      }
      SetRunning(true);
      trace := trace + [Requested(StartScan)];
    }

    /** The scan was canceled. */
    method OnCanceled()
      modifies this`running, this`trace
      ensures !running
      ensures trace == old(trace) + (if old(running) then [RunningChanged(false)] else [])
    {
      SetRunning(false);
    }

    /** The scan finished. */
    method OnFinished()
      modifies this`running, this`trace
      ensures !running
      ensures trace == old(trace) + (if old(running) then [RunningChanged(false)] else [])
    {
      SetRunning(false);
    }

    /** The scan reported `device`; it is appended unless an equal record is listed. */
    method OnDeviceDiscovered(device: DeviceInfo)
      requires Valid()
      modifies this`devices, this`trace
      ensures Valid()
      ensures devices == AppendNew(old(devices), device)
      ensures trace == old(trace) + Inserted(|old(devices)|, |devices|)
    {
      if device in devices {
        return;
      }
      var rows := |devices|;
      devices := devices + [device];
      trace := trace + [RowsInserted(rows)];
    }

    /** The scan reported an error: forwarded, and the running flag left alone. */
    method OnError()
      modifies this`trace
      ensures trace == old(trace) + [ErrorOccurred]
    {
      trace := trace + [ErrorOccurred];
    }

    function RowCount(): (n: nat)
      reads this
      ensures n == |devices|
    {
      |devices|
    }

    /** The device's name or address for row `row`; nothing outside the rows or for another role. */
    function Data(row: int, role: int): (v: Variant)
      reads this
      ensures !(0 <= row < |devices|) ==> v == Invalid
      ensures 0 <= row < |devices| && role == NameRole ==> v == Text(devices[row].name)
      ensures 0 <= row < |devices| && role == AddressRole ==> v == AddressValue(devices[row].address)
      ensures role != NameRole && role != AddressRole ==> v == Invalid
    {
      if row < 0 || row >= |devices| then Invalid
      else if role == NameRole then Text(devices[row].name)
      else if role == AddressRole then AddressValue(devices[row].address)
      else Invalid
    }
  }

  /**
   * Whatever the scans report, in whatever order and however often, the
   * list is the reports each kept once in first-report order, after the
   * rows already listed.
   */
  lemma ReportsAccumulate(listed: seq<DeviceInfo>, reports: seq<DeviceInfo>)
    requires NoDuplicates(listed)
    ensures AppendAll(listed, reports)[..|listed|] == listed
    ensures NoDuplicates(AppendAll(listed, reports))
    ensures forall d :: d in AppendAll(listed, reports) <==> d in listed || d in reports
    ensures AppendAll(AppendAll(listed, reports), reports) == AppendAll(listed, reports)
  {
    AppendAllNoDuplicates(listed, reports);
    AppendAllMembers(listed, reports);
    AppendAllIdempotent(listed, reports);
  }

  /**
   * Records are compared whole, not by address: a device reported again
   * under another name is listed a second time, beside its first row.
   */
  lemma RenamedDeviceListedAgain(listed: seq<DeviceInfo>, k: nat, name: string)
    requires k < |listed| && name != listed[k].name
    ensures var r := AppendNew(listed, DeviceInfo(name, listed[k].address));
      exists i, j :: 0 <= i < j < |r| && r[i].address == r[j].address && r[i].name != r[j].name
  {
    var d := DeviceInfo(name, listed[k].address);
    var r := AppendNew(listed, d);
    if d in listed {
      var i :| 0 <= i < |listed| && listed[i] == d;
      if i < k {
        assert r[i].address == r[k].address && r[i].name != r[k].name;
      } else {
        assert r[k].address == r[i].address && r[k].name != r[i].name;
      }
    } else {
      assert r[k].address == r[|listed|].address && r[k].name != r[|listed|].name;
    }
  }
}

=== FILE: gatt.dfy ===
/**
 * Shared vocabulary of the four list models: the GATT entities the transport
 * reports (services, characteristics, descriptors), the transport's state and
 * error enumerations, the requests the models send to the transport, and the
 * signals they emit upward to the display layer.
 */
module Gatt {

  datatype Option<T> = None | Some(value: T)

  /** A 128-bit Bluetooth UUID, held as its numeric value. */
  type Uuid = u: int | 0 <= u < 0x1_0000_0000_0000_0000_0000_0000_0000_0000

  /** A 48-bit Bluetooth device address. */
  type Address = a: int | 0 <= a < 0x1_0000_0000_0000

  type Bytes = seq<bv8>

  /** The Bluetooth base UUID 00000000-0000-1000-8000-00805F9B34FB. */
  const BaseUuid: Uuid := 0x0000_0000_0000_1000_8000_0080_5F9B_34FB

  /** The 128-bit form of a 16-bit assigned number. */
  function FromShortUuid(short: bv16): (u: Uuid)
    ensures u % 0x1_0000_0000_0000_0000_0000_0000 == BaseUuid
    ensures u / 0x1_0000_0000_0000_0000_0000_0000 == short as int
  {
    short as int * 0x1_0000_0000_0000_0000_0000_0000 + BaseUuid
  }

  /** The Client Characteristic Configuration descriptor, assigned number 0x2902. */
  const ClientCharacteristicConfiguration: Uuid := FromShortUuid(0x2902)

  /** Qt::UserRole: the first role number an item model may define. */
  const UserRole := 0x0100

  /** A descriptor record: `handle` is its attribute handle, unique on the device. */
  datatype Descriptor = Descriptor(uuid: Uuid, handle: nat, name: string, value: Bytes)

  /**
   * Qt's descriptor equality: two records are the same descriptor when they
   * refer to the same attribute on the device, whatever values they hold.
   */
  predicate SameDescriptor(a: Descriptor, b: Descriptor) {
    a.handle == b.handle
  }

  /** `ds` contains `d` as Qt's contains() sees it: some record of `ds` is the same descriptor. */
  function ContainsDescriptor(ds: seq<Descriptor>, d: Descriptor): (b: bool)
    ensures d in ds ==> b
    ensures b <==> exists i :: 0 <= i < |ds| && ds[i].handle == d.handle
  {
    assert forall i :: 0 <= i < |ds| ==> ds[i] in ds;
    exists e :: e in ds && SameDescriptor(e, d)
  }

  datatype Characteristic = Characteristic(
    uuid: Uuid,
    handle: nat,
    name: string,
    properties: bv8,
    value: Bytes,
    descriptors: seq<Descriptor>)

  /** A scanned device record: its advertised name and its address. */
  datatype DeviceInfo = DeviceInfo(name: string, address: Address)

  /** States of a remote GATT service object. */
  datatype ServiceState = InvalidService | DiscoveryRequired | DiscoveringServices | ServiceDiscovered | LocalService

  /** Error kinds a remote GATT service object reports. */
  datatype ServiceError =
    | NoError | OperationError | CharacteristicWriteError | DescriptorWriteError
    | UnknownError | CharacteristicReadError | DescriptorReadError

  /** States of the connection to one peripheral. */
  datatype ControllerState =
    | UnconnectedState | ConnectingState | ConnectedState | DiscoveringState
    | DiscoveredState | ClosingState | AdvertisingState

  /**
   * A live service object owned by the transport. Its identity and name are
   * fixed when it is created; its state and its characteristics are filled
   * in by the transport as discovery proceeds.
   */
  class RemoteService {
    const uuid: Uuid
    const name: string
    var state: ServiceState
    var characteristics: seq<Characteristic>

    constructor (uuid: Uuid, name: string, state: ServiceState, characteristics: seq<Characteristic>)
      ensures this.uuid == uuid && this.name == name
      ensures this.state == state && this.characteristics == characteristics
    {
      this.uuid := uuid;
      this.name := name;
      this.state := state;
      this.characteristics := characteristics;
    }
  }

  /** What a model asks of the transport. */
  datatype Request =
    | StartScan
    | ConnectToDevice
    | DiscoverServices
    | DiscoverDetails
    | ReadCharacteristic(characteristic: Characteristic)
    | WriteCharacteristic(characteristic: Characteristic, payload: Bytes)
    | WriteDescriptor(descriptor: Descriptor, payload: Bytes)

  /** What a model emits towards the display layer, or sends to the transport. */
  datatype Event =
    | RunningChanged(running: bool)
    | ConnectedChanged(connected: bool)
    | DiscoveryTimeoutChanged(timeout: int)
    | ErrorOccurred
    | ModelReset
    | RowsInserted(row: nat)
    | DataChanged(top: int, bottom: int)
    | Requested(request: Request)

  /** The value a model hands to the display layer for one row and role. */
  datatype Variant =
    | Invalid
    | Text(text: string)
    | UuidValue(uuid: Uuid)
    | AddressValue(address: Address)
    | Flag(flag: bool)
    | Raw(bytes: Bytes)

  /** One row-insertion signal per row from `lo` up to, not including, `hi`. */
  function Inserted(lo: nat, hi: nat): seq<Event>
    decreases hi
  {
    if hi <= lo then [] else Inserted(lo, hi - 1) + [RowsInserted(hi - 1)]
  }

  /** Logging one more insertion after `t + Inserted(lo, hi)` extends the run of insertions. */
  lemma InsertedStep(t: seq<Event>, lo: nat, hi: nat)
    requires lo <= hi
    ensures t + Inserted(lo, hi) + [RowsInserted(hi)] == t + Inserted(lo, hi + 1)
  {
  }

  /**
   * The characteristic a service object resolves `uuid` to: the first one
   * carrying that UUID, or none (an invalid characteristic).
   */
  function FindCharacteristic(cs: seq<Characteristic>, uuid: Uuid): (r: Option<Characteristic>)
    ensures r.Some? ==> r.value in cs && r.value.uuid == uuid
    ensures r.None? <==> forall c :: c in cs ==> c.uuid != uuid
    ensures r.Some? ==> exists i :: 0 <= i < |cs| && cs[i] == r.value
                          && forall j :: 0 <= j < i ==> cs[j].uuid != uuid
  {
    if |cs| == 0 then None
    else if cs[0].uuid == uuid then Some(cs[0])
    else
      var r := FindCharacteristic(cs[1..], uuid);
      assert forall c :: c in cs[1..] ==> c in cs;
      assert r.Some? ==> exists i :: 1 <= i < |cs| && cs[i] == r.value
                          && forall j :: 0 <= j < i ==> cs[j].uuid != uuid by {
        if r.Some? {
          var i :| 0 <= i < |cs[1..]| && cs[1..][i] == r.value
                   && forall j :: 0 <= j < i ==> cs[1..][j].uuid != uuid;
          assert cs[i + 1] == r.value;
          assert forall j :: 0 <= j < i + 1 ==> cs[j].uuid != uuid by {
            forall j | 0 <= j < i + 1 ensures cs[j].uuid != uuid {
              if j > 0 { assert cs[j] == cs[1..][j - 1]; }
            }
          }
        }
      }
      r
  }

  /** The descriptor of `c` carrying `uuid`: the first one, or none (an invalid descriptor). */
  function DescriptorOf(c: Characteristic, uuid: Uuid): (r: Option<Descriptor>)
    ensures r.Some? ==> r.value in c.descriptors && r.value.uuid == uuid
    ensures r.None? <==> forall d :: d in c.descriptors ==> d.uuid != uuid
  {
    FirstDescriptor(c.descriptors, uuid)
  }

  /**
   * The record `ds` holds for the attribute `d` refers to: the first one
   * with its handle, or none once the list no longer has that attribute.
   */
  function RecordOf(ds: seq<Descriptor>, d: Descriptor): (r: Option<Descriptor>)
    ensures r.Some? ==> r.value in ds && SameDescriptor(r.value, d)
    ensures r.None? <==> !ContainsDescriptor(ds, d)
  {
    if |ds| == 0 then None
    else if ds[0].handle == d.handle then Some(ds[0])
    else
      assert ds == [ds[0]] + ds[1..];
      RecordOf(ds[1..], d)
  }

  /** When handles are distinct, the record found for a listed descriptor is that descriptor itself. */
  lemma {:induction false} RecordOfDistinct(ds: seq<Descriptor>, k: nat)
    requires k < |ds|
    requires forall i, j :: 0 <= i < j < |ds| ==> ds[i].handle != ds[j].handle
    ensures RecordOf(ds, ds[k]) == Some(ds[k])
  {
    if k > 0 {
      assert ds[1..][k - 1] == ds[k];
      RecordOfDistinct(ds[1..], k - 1);
    }
  }

  function FirstDescriptor(ds: seq<Descriptor>, uuid: Uuid): (r: Option<Descriptor>)
    ensures r.Some? ==> r.value in ds && r.value.uuid == uuid
    ensures r.None? <==> forall d :: d in ds ==> d.uuid != uuid
  {
    if |ds| == 0 then None
    else if ds[0].uuid == uuid then Some(ds[0])
    else
      assert forall d :: d in ds[1..] ==> d in ds;
      FirstDescriptor(ds[1..], uuid)
  }
}

=== FILE: ordered_list.dfy ===
/**
 * The ordered, duplicate-free list every model keeps: rows are appended at
 * the tail only when the value is not yet present, so row indices follow
 * first-discovery order and a repeated report changes nothing.
 */
module OrderedList {

  ghost predicate NoDuplicates<T>(s: seq<T>) {
    forall i, j :: 0 <= i < j < |s| ==> s[i] != s[j]
  }

  /** The row of the first occurrence of `x` in `s`, or -1 when there is none. */
  function IndexOf<T(==)>(s: seq<T>, x: T): (i: int)
    ensures -1 <= i < |s|
    ensures i == -1 <==> x !in s
    ensures 0 <= i ==> s[i] == x && x !in s[..i]
  {
    if |s| == 0 then -1
    else if s[0] == x then 0
    else
      var k := IndexOf(s[1..], x);
      assert x in s[1..] ==> x in s;
      assert x in s ==> x == s[0] || x in s[1..];
      assert 0 <= k ==> s[..k + 1] == [s[0]] + s[1..][..k];
      if k == -1 then -1 else k + 1
  }

  lemma IndexOfUnique<T>(s: seq<T>, k: nat)
    requires NoDuplicates(s) && k < |s|
    ensures IndexOf(s, s[k]) == k
  {
  }

  lemma IndexOfAfterSeparator<T>(a: seq<T>, x: T, b: seq<T>)
    requires x !in a
    ensures IndexOf(a + [x] + b, x) == |a|
  {
    assert (a + [x] + b)[|a|] == x;
  }

  /** Append `x` at the tail unless it is already present. */
  function AppendNew<T(==)>(s: seq<T>, x: T): (r: seq<T>)
    ensures x in r
    ensures x in s ==> r == s
    ensures x !in s ==> r == s + [x]
  {
    if x in s then s else s + [x]
  }

  /** Append each of `xs`, in order, to `acc` with AppendNew. */
  function AppendAll<T(==)>(acc: seq<T>, xs: seq<T>): (r: seq<T>)
    ensures |acc| <= |r| <= |acc| + |xs|
    ensures r[..|acc|] == acc
    decreases |xs|
  {
    if xs == [] then acc
    else AppendNew(AppendAll(acc, xs[..|xs| - 1]), xs[|xs| - 1])
  }

  lemma AppendAllStep<T>(acc: seq<T>, xs: seq<T>, i: nat)
    requires i < |xs|
    ensures AppendAll(acc, xs[..i + 1]) == AppendNew(AppendAll(acc, xs[..i]), xs[i])
  {
    assert xs[..i + 1][..i] == xs[..i];
  }

  lemma {:induction false} AppendAllMembers<T>(acc: seq<T>, xs: seq<T>)
    ensures forall y :: y in AppendAll(acc, xs) <==> y in acc || y in xs
    decreases |xs|
  {
    if xs != [] {
      var init := xs[..|xs| - 1];
      AppendAllMembers(acc, init);
      assert xs == init + [xs[|xs| - 1]];
    }
  }

  lemma {:induction false} AppendAllNoDuplicates<T>(acc: seq<T>, xs: seq<T>)
    requires NoDuplicates(acc)
    ensures NoDuplicates(AppendAll(acc, xs))
    decreases |xs|
  {
    if xs != [] {
      AppendAllNoDuplicates(acc, xs[..|xs| - 1]);
    }
  }

  /**
   * The rows AppendAll adds after `acc` hold values of `xs` that were not in
   * `acc`, ordered by where each value first occurs in `xs`.
   */
  lemma {:induction false} AppendAllFirstOccurrence<T>(acc: seq<T>, xs: seq<T>)
    ensures forall i :: |acc| <= i < |AppendAll(acc, xs)| ==>
      AppendAll(acc, xs)[i] in xs && AppendAll(acc, xs)[i] !in acc
    ensures forall i, j :: |acc| <= i < j < |AppendAll(acc, xs)| ==>
      IndexOf(xs, AppendAll(acc, xs)[i]) < IndexOf(xs, AppendAll(acc, xs)[j])
    decreases |xs|
  {
    if xs != [] {
      var n := |xs| - 1;
      var init, last := xs[..n], xs[n];
      var r0 := AppendAll(acc, init);
      var r := AppendAll(acc, xs);
      assert xs == init + [last];
      AppendAllFirstOccurrence(acc, init);
      forall i | |acc| <= i < |r0|
        ensures r0[i] in xs && IndexOf(xs, r0[i]) == IndexOf(init, r0[i]) < n
      {
        IndexOfPrefix(init, last, r0[i]);
      }
      if last !in r0 {
        assert r == r0 + [last];
        AppendAllMembers(acc, init);
        assert last !in init;
        IndexOfAfterSeparator(init, last, []);
        assert IndexOf(xs, last) == n;
        forall i, j | |acc| <= i < j < |r| ensures IndexOf(xs, r[i]) < IndexOf(xs, r[j]) {
          if j < |r0| {
            assert IndexOf(init, r0[i]) < IndexOf(init, r0[j]);
          }
        }
      } else {
        assert r == r0;
      }
    }
  }

  lemma IndexOfPrefix<T>(s: seq<T>, x: T, y: T)
    requires y in s
    ensures IndexOf(s + [x], y) == IndexOf(s, y)
  {
    var i := IndexOf(s, y);
    var j := IndexOf(s + [x], y);
    assert (s + [x])[i] == y;
  }

  /** The values of `xs`, each once, in first-occurrence order. */
  function Distinct<T(==)>(xs: seq<T>): (r: seq<T>)
    ensures NoDuplicates(r)
    ensures forall i :: 0 <= i < |r| ==> r[i] in xs
    ensures forall i :: 0 <= i < |xs| ==> xs[i] in r
    ensures forall i, j :: 0 <= i < j < |r| ==> IndexOf(xs, r[i]) < IndexOf(xs, r[j])
  {
    var r := AppendAll([], xs);
    AppendAllMembers([], xs);
    AppendAllNoDuplicates([], xs);
    AppendAllFirstOccurrence([], xs);
    assert forall i :: 0 <= i < |xs| ==> xs[i] in r;
    r
  }

  /** Replaying the same values a second time changes nothing. */
  lemma {:induction false} AppendAllIdempotent<T>(acc: seq<T>, xs: seq<T>)
    ensures AppendAll(AppendAll(acc, xs), xs) == AppendAll(acc, xs)
  {
    var r := AppendAll(acc, xs);
    AppendAllMembers(acc, xs);
    AppendAllAbsorbs(r, xs);
  }

  lemma {:induction false} AppendAllAbsorbs<T>(acc: seq<T>, xs: seq<T>)
    requires forall y :: y in xs ==> y in acc
    ensures AppendAll(acc, xs) == acc
    decreases |xs|
  {
    if xs != [] {
      AppendAllAbsorbs(acc, xs[..|xs| - 1]);
    }
  }

  /** Values that are already distinct are all kept, in their order. */
  lemma {:induction false} AppendAllKeepsDistinct<T>(acc: seq<T>, xs: seq<T>)
    requires NoDuplicates(acc + xs)
    ensures AppendAll(acc, xs) == acc + xs
    decreases |xs|
  {
    if xs != [] {
      var n := |xs| - 1;
      var all := acc + xs;
      var front := acc + xs[..n];
      assert forall i :: 0 <= i < |front| ==> front[i] == all[i];
      AppendAllKeepsDistinct(acc, xs[..n]);
      assert all[|acc| + n] == xs[n];
      assert xs[n] !in front by {
        forall i | 0 <= i < |front| ensures front[i] != xs[n] {
          assert front[i] == all[i];
        }
      }
      assert all == front + [xs[n]];
    }
  }
}

=== FILE: scenario.dfy ===
/**
 * One session end to end: a scan finds a heart-rate sensor, the services
 * model connects to it and lists its Heart Rate service, the
 * characteristics model lists the Heart Rate Measurement characteristic,
 * and subscribing to its notifications writes 01 00 to its configuration
 * descriptor, after which the row shows notifications as enabled.
 */
module Scenario {
  import opened Gatt
  import CharacteristicProperties
  import Devices
  import Services
  import Characteristics
  import Descriptors
  import OrderedList

  const SensorAddress: Address := 0xAA_BB_CC_DD_EE_FF

  /** The scan reports the sensor twice and finishes: it is listed once, and the scan has stopped. */
  method Scan() returns (listed: seq<DeviceInfo>, running: bool)
    ensures |listed| == 1 && listed[0].address == SensorAddress
    ensures !running
  {
    var scanner := new Devices.DevicesModel(40000);
    scanner.Update();
    var sensor := DeviceInfo("HR Sensor", SensorAddress);
    scanner.OnDeviceDiscovered(sensor);
    scanner.OnDeviceDiscovered(sensor);
    scanner.OnFinished();
    listed := scanner.devices;
    running := scanner.running;
  }

  /**
   * Connecting to the sensor and discovering its Heart Rate service (reported
   * twice) leaves the model connected, no longer running, and listing the
   * service once; looking the service up by UUID returns it.
   */
  method Connect(heartRate: RemoteService) returns (connected: bool, running: bool,
                                                   services: seq<Uuid>, found: RemoteService?)
    requires heartRate.uuid == FromShortUuid(0x180D)
    ensures connected && !running
    ensures services == [FromShortUuid(0x180D)]
    ensures found == heartRate
  {
    var connector := new Services.ServicesModel();
    connector.Update(SensorAddress);
    connector.OnStateChanged(ConnectingState);
    connector.OnStateChanged(ConnectedState);
    connector.OnStateChanged(DiscoveringState);
    connector.OnServiceDiscovered(heartRate.uuid, heartRate);
    connector.OnServiceDiscovered(heartRate.uuid, heartRate);
    connector.OnStateChanged(DiscoveredState);
    connected := connector.connected;
    running := connector.running;
    services := Services.ServiceUuids(connector.services);
    found := connector.Service(heartRate.uuid);
  }

  /**
   * Bound to the Heart Rate service before its details are discovered, the
   * characteristics model asks for discovery and, once it completes, lists
   * the measurement characteristic.
   */
  method Bind(measurement: Characteristic) returns (table: Characteristics.CharacteristicsModel, heartRate: RemoteService)
    ensures fresh(table) && fresh(heartRate)
    ensures table.Valid() && table.service == heartRate && table.uuids == [measurement.uuid]
    ensures heartRate.characteristics == [measurement] && heartRate.state == ServiceDiscovered
  {
    heartRate := new RemoteService(FromShortUuid(0x180D), "Heart Rate", DiscoveryRequired, [measurement]);
    table := new Characteristics.CharacteristicsModel();
    table.Update(heartRate);
    assert table.uuids == [] && heartRate in table.wired;
    heartRate.state := ServiceDiscovered;
    table.OnStateChanged(heartRate, ServiceDiscovered);
    assert Characteristics.UuidsOf(heartRate.characteristics) == [measurement.uuid];
    assert OrderedList.AppendAll([], [measurement.uuid]) == [measurement.uuid] by {
      assert [measurement.uuid][..0] == [];
    }
  }

  /**
   * Subscribing to the measurement's notifications writes 01 00 to its
   * configuration descriptor; once the write completes the row shows
   * notifications as enabled, and the completion refreshes exactly that row.
   */
  method Subscribe() returns (rows: seq<Uuid>, request: Option<Request>, before: Variant, after: Variant,
                              ghost refreshed: seq<Event>)
    ensures rows == [FromShortUuid(0x2A37)]
    ensures request.Some? && request.value.WriteDescriptor?
    ensures request.value.descriptor.uuid == ClientCharacteristicConfiguration
    ensures request.value.payload == [0x01, 0x00]
    ensures before == Flag(false) && after == Flag(true)
    ensures refreshed == [DataChanged(0, 0)]
  {
    var measurementUuid := FromShortUuid(0x2A37);
    var cccd := Descriptor(ClientCharacteristicConfiguration, 0x0011, "CCCD", [0x00, 0x00]);
    var measurement := Characteristic(measurementUuid, 0x0010, "Measurement",
                                      CharacteristicProperties.Notify, [], [cccd]);
    var table, heartRate := Bind(measurement);
    rows := table.uuids;
    assert FindCharacteristic(heartRate.characteristics, measurementUuid) == Some(measurement);
    before := table.Data(0, Characteristics.NotificationEnabledRole);

    request := table.EnableNotification(measurementUuid, true);
    assert request == Some(WriteDescriptor(cccd, [0x01, 0x00]));
    var written := cccd.(value := request.value.payload);
    var updated := measurement.(descriptors := [written]);
    heartRate.characteristics := [updated];
    ghost var logged := table.trace;
    assert Characteristics.HoldsDescriptor(table.uuids, heartRate.characteristics, written) == [true];
    assert Characteristics.RowsWhere([true]) == [0];
    table.OnDescriptorWritten(heartRate, written);
    refreshed := table.trace[|logged|..];
    assert FindCharacteristic(heartRate.characteristics, measurementUuid) == Some(updated);
    after := table.Data(0, Characteristics.NotificationEnabledRole);
  }

  /** Lists the descriptors of the only characteristic of `heartRate`, which has one descriptor. */
  method ListDescriptors(heartRate: RemoteService, measurement: Characteristic)
    returns (listing: Descriptors.DescriptorsModel)
    requires heartRate.characteristics == [measurement] && |measurement.descriptors| == 1
    ensures fresh(listing)
    ensures listing.descriptors == measurement.descriptors
    ensures listing.service == heartRate && listing.characteristic == measurement.uuid
  {
    listing := new Descriptors.DescriptorsModel();
    assert FindCharacteristic(heartRate.characteristics, measurement.uuid) == Some(measurement);
    assert OrderedList.AppendAll([], measurement.descriptors) == measurement.descriptors by {
      assert measurement.descriptors[..0] == [];
    }
    listing.Update(heartRate, measurement.uuid);
  }

  /** A row of a characteristic with a single descriptor reads that descriptor's value. */
  lemma SingleDescriptorValue(c: Characteristic, e: Descriptor, d: Descriptor)
    requires c.descriptors == [e] && e.handle == d.handle
    ensures Descriptors.CurrentValue([c], c.uuid, d) == e.value
  {
    assert FindCharacteristic([c], c.uuid) == Some(c);
    assert RecordOf([e], d) == Some(e);
  }

  /**
   * The descriptors model lists the measurement's configuration descriptor;
   * once the transport completes a write of 01 00 to it, the row's value
   * shows the new bytes, without a new snapshot.
   */
  method Inspect() returns (rows: nat, before: Variant, after: Variant)
    ensures rows == 1
    ensures before == Raw([0x00, 0x00]) && after == Raw([0x01, 0x00])
  {
    var measurementUuid := FromShortUuid(0x2A37);
    var cccd := Descriptor(ClientCharacteristicConfiguration, 0x0011, "CCCD", [0x00, 0x00]);
    var measurement := Characteristic(measurementUuid, 0x0010, "Measurement",
                                      CharacteristicProperties.Notify, [], [cccd]);
    var heartRate := new RemoteService(FromShortUuid(0x180D), "Heart Rate", ServiceDiscovered, [measurement]);
    var listing := ListDescriptors(heartRate, measurement);
    rows := listing.RowCount();
    SingleDescriptorValue(measurement, cccd, cccd);
    before := listing.Data(0, Descriptors.ValueRole);

    var written := cccd.(value := [0x01, 0x00]);
    var updated := measurement.(descriptors := [written]);
    heartRate.characteristics := [updated];
    SingleDescriptorValue(updated, written, cccd);
    after := listing.Data(0, Descriptors.ValueRole);
  }
}

=== FILE: services_model.dfy ===
/**
 * The services list model: connects to one peripheral, follows the
 * connection's state, and lists the service objects discovered on it, one
 * per service UUID, in discovery order.
 */
module Services {
  import opened Gatt
  import opened OrderedList

  const NameRole := UserRole + 1
  const UuidRole := UserRole + 2

  /** The connection to one peripheral, identified by the peripheral's address. */
  datatype Controller = Controller(remoteAddress: Address)

  /** The UUIDs of `ss`, in order. */
  function ServiceUuids(ss: seq<RemoteService>): (us: seq<Uuid>)
    ensures |us| == |ss|
    ensures forall i :: 0 <= i < |ss| ==> us[i] == ss[i].uuid
  {
    seq(|ss|, i requires 0 <= i < |ss| => ss[i].uuid)
  }

  /** The first service of `ss` with UUID `uuid`, or null. */
  function FindService(ss: seq<RemoteService>, uuid: Uuid): (r: RemoteService?)
    ensures r == null <==> forall i :: 0 <= i < |ss| ==> ss[i].uuid != uuid
    ensures r != null ==> exists i :: 0 <= i < |ss| && ss[i] == r && r.uuid == uuid
                            && forall j :: 0 <= j < i ==> ss[j].uuid != uuid
  {
    if |ss| == 0 then null
    else if ss[0].uuid == uuid then ss[0]
    else
      var r := FindService(ss[1..], uuid);
      assert forall i :: 1 <= i < |ss| ==> ss[i] == ss[1..][i - 1];
      assert r != null ==> exists i :: 1 <= i < |ss| && ss[i] == r && r.uuid == uuid
                            && forall j :: 0 <= j < i ==> ss[j].uuid != uuid by {
        if r != null {
          var i :| 0 <= i < |ss[1..]| && ss[1..][i] == r && r.uuid == uuid
                   && forall j :: 0 <= j < i ==> ss[1..][j].uuid != uuid;
          assert ss[i + 1] == r;
          forall j | 0 <= j < i + 1 ensures ss[j].uuid != uuid {
            if j > 0 { assert ss[j] == ss[1..][j - 1]; }
          }
        }
      }
      r
  }

  /** Appending a service with a new UUID leaves earlier lookups alone and makes it found. */
  lemma {:induction false} FindServiceAppend(ss: seq<RemoteService>, s: RemoteService, uuid: Uuid)
    requires FindService(ss, s.uuid) == null
    ensures uuid == s.uuid ==> FindService(ss + [s], uuid) == s
    ensures uuid != s.uuid ==> FindService(ss + [s], uuid) == FindService(ss, uuid)
    decreases |ss|
  {
    if |ss| > 0 {
      assert (ss + [s])[1..] == ss[1..] + [s];
      if ss[0].uuid != uuid {
        assert FindService(ss[1..], s.uuid) == null by {
          assert forall i :: 0 <= i < |ss[1..]| ==> ss[1..][i] == ss[i + 1];
        }
        FindServiceAppend(ss[1..], s, uuid);
      }
    }
  }

  /** With UUIDs unique, the first match is the one at the UUID's index. */
  lemma FindServiceIndex(ss: seq<RemoteService>, uuid: Uuid)
    requires NoDuplicates(ServiceUuids(ss))
    ensures FindService(ss, uuid) == null <==> uuid !in ServiceUuids(ss)
    ensures FindService(ss, uuid) != null ==> FindService(ss, uuid) == ss[IndexOf(ServiceUuids(ss), uuid)]
  {
    var r := FindService(ss, uuid);
    var us := ServiceUuids(ss);
    if r != null {
      var i :| 0 <= i < |ss| && ss[i] == r && r.uuid == uuid
               && forall j :: 0 <= j < i ==> ss[j].uuid != uuid;
      assert us[i] == uuid;
      IndexOfUnique(us, i);
    } else {
      assert forall i :: 0 <= i < |us| ==> us[i] != uuid;
    }
  }

  class ServicesModel {
    var running: bool
    var connected: bool
    var controller: Option<Controller>
    /** The rows: service objects created for the discovered service UUIDs. */
    var services: seq<RemoteService>
    /** Signals emitted and requests sent to the transport, oldest first. */
    ghost var trace: seq<Event>

    ghost predicate Valid()
      reads this
    {
      && NoDuplicates(ServiceUuids(services))
      && (controller.None? ==> services == [])
    }

    constructor ()
      ensures Valid()
      ensures !running && !connected && controller.None? && services == [] && trace == []
    {
      running := false;
      connected := false;
      controller := None;
      services := [];
      trace := [];
    }

    method SetRunning(r: bool)
      modifies this`running, this`trace
      ensures running == r
      ensures trace == old(trace) + (if old(running) == r then [] else [RunningChanged(r)])
    {
      if running == r {
        return;
      }
      running := r;
      trace := trace + [RunningChanged(r)];
    }

    method SetConnected(c: bool)
      modifies this`connected, this`trace
      ensures connected == c
      ensures trace == old(trace) + (if old(connected) == c then [] else [ConnectedChanged(c)])
    {
      if connected == c {
        return;
      }
      connected := c;
      trace := trace + [ConnectedChanged(c)];
    }

    /**
     * Connect to the peripheral at `address`. Ignored while running or when
     * the current connection already goes to `address`; otherwise the
     * connection is replaced, the list emptied in one reset, and the new
     * connection asked to connect.
     */
    method Update(address: Address)
      requires Valid()
      modifies this`running, this`connected, this`controller, this`services, this`trace
      ensures Valid()
      ensures old(running) || old(controller) == Some(Controller(address)) ==>
        running == old(running) && connected == old(connected) && controller == old(controller)
        && services == old(services) && trace == old(trace)
      ensures !old(running) && old(controller) != Some(Controller(address)) ==>
        && running && !connected
        && controller == Some(Controller(address)) && services == []
        && trace == old(trace) + [RunningChanged(true), ModelReset]
                    + (if old(connected) then [ConnectedChanged(false)] else [])
                    + [Requested(ConnectToDevice)]
    {
      if running {
        return;
      }
      if controller.Some? && controller.value.remoteAddress == address {
        return;
      }
      SetRunning(true);
      trace := trace + [ModelReset];
      controller := Some(Controller(address));
      services := [];
      SetConnected(false);
      trace := trace + [Requested(ConnectToDevice)];
    }

    /** The current connection moved to `state`. Without a connection no handler is connected. */
    method OnStateChanged(state: ControllerState)
      requires Valid()
      modifies this`running, this`connected, this`trace
      ensures Valid()
      ensures controller.None? || state !in {ConnectingState, DiscoveringState, ConnectedState, DiscoveredState} ==>
        running == old(running) && connected == old(connected) && trace == old(trace)
      ensures controller.Some? && state in {ConnectingState, DiscoveringState} ==>
        running && connected == old(connected)
        && trace == old(trace) + (if old(running) then [] else [RunningChanged(true)])
      ensures controller.Some? && state == ConnectedState ==>
        connected && running == old(running)
        && trace == old(trace) + (if old(connected) then [] else [ConnectedChanged(true)])
                    + [Requested(DiscoverServices)]
      ensures controller.Some? && state == DiscoveredState ==>
        !running && connected == old(connected)
        && trace == old(trace) + (if old(running) then [RunningChanged(false)] else [])
    {
      if controller.None? {
        return;
      }
      match state {
        case ConnectingState =>
          SetRunning(true);
        case DiscoveringState =>
          SetRunning(true);
        case ConnectedState =>
          SetConnected(true);
          trace := trace + [Requested(DiscoverServices)];
        case UnconnectedState =>
        case DiscoveredState =>
          SetRunning(false);
        case _ =>
      }
    }

    /** The current connection reported an error. */
    method OnError()
      requires Valid()
      modifies this`running, this`trace
      ensures controller.None? ==> running == old(running) && trace == old(trace)
      ensures controller.Some? ==>
        !running && trace == old(trace) + (if old(running) then [RunningChanged(false)] else []) + [ErrorOccurred]
    {
      if controller.None? {
        return;
      }
      SetRunning(false);
      trace := trace + [ErrorOccurred];
    }

    /**
     * The connection found the service with UUID `uuid`; `created` is the
     * service object the connection returned for it, null when it could
     * not create one. The object is appended unless the UUID is listed.
     */
    method OnServiceDiscovered(uuid: Uuid, created: RemoteService?)
      requires Valid()
      requires created != null ==> created.uuid == uuid
      modifies this`services, this`trace
      ensures Valid()
      ensures controller.None? || FindService(old(services), uuid) != null || created == null ==>
        services == old(services) && trace == old(trace)
      ensures controller.Some? && FindService(old(services), uuid) == null && created != null ==>
        services == old(services) + [created] && trace == old(trace) + [RowsInserted(|old(services)|)]
    {
      if controller.None? {
        return;
      }
      if FindService(services, uuid) != null {
        return;
      }
      if created == null {
        return;
      }
      var rows := |services|;
      services := services + [created];
      trace := trace + [RowsInserted(rows)];
      assert ServiceUuids(services) == ServiceUuids(old(services)) + [uuid];
    }

    /** The listed service object with UUID `uuid`: the first one, or null. */
    function Service(uuid: Uuid): (r: RemoteService?)
      reads this
      requires Valid()
      ensures r == null <==> uuid !in ServiceUuids(services)
      ensures r != null ==> r.uuid == uuid && r == services[IndexOf(ServiceUuids(services), uuid)]
    {
      FindServiceIndex(services, uuid);
      FindService(services, uuid)
    }

    function RowCount(): (n: nat)
      reads this
      ensures n == |services|
    {
      |services|
    }

    /** The service's name or UUID for row `row`; nothing outside the rows or for another role. */
    function Data(row: int, role: int): (v: Variant)
      reads this
      ensures !(0 <= row < |services|) ==> v == Invalid
      ensures 0 <= row < |services| && role == NameRole ==> v == Text(services[row].name)
      ensures 0 <= row < |services| && role == UuidRole ==> v == UuidValue(ServiceUuids(services)[row])
      ensures role != NameRole && role != UuidRole ==> v == Invalid
    {
      if row < 0 || row >= |services| then Invalid
      else if role == NameRole then Text(services[row].name)
      else if role == UuidRole then UuidValue(services[row].uuid)
      else Invalid
    }
  }

  /**
   * Once a service object has been listed, the lookup returns it until the
   * next reset, whatever is discovered after it.
   */
  lemma ListedServiceStaysFound(ss: seq<RemoteService>, s: RemoteService, later: RemoteService)
    requires FindService(ss, s.uuid) == null
    requires FindService(ss + [s], later.uuid) == null
    ensures FindService(ss + [s] + [later], s.uuid) == s
  {
    FindServiceAppend(ss, s, s.uuid);
    FindServiceAppend(ss + [s], later, s.uuid);
  }
}
